=== FILE: README.md ===
# Task authoring front-end, modelled in Dafny

This project models the core of a browser front-end for authoring workflow
tasks. The shell holds a catalogue of top-level templates. Clicking one
expands it and loads its child tasks into an overlay list. From that list a
task can be edited in a schema-driven form, or dragged onto a flow canvas
where it becomes a node. The form's code saves with PUT when it has a target
and with POST otherwise; the shell always passes a target. It deletes with
DELETE. After a successful save the shell reloads the children;
after a successful delete it removes the task from the list.

Every event is a pure function here. Remote responses (each carried by the
event whose handler awaits it), the confirmation
dialog's answer, `Date.now()`, the canvas bounding rectangle and the pointer
position are parameters. The JSON text codec, `Number(text)` and
`String(number)` are fields of a `Host` value that the operations take as an
argument. Their round trip is stated per value (`Js.RoundTrips`) and used
only as a hypothesis.

Modules, one per file:

- `Wrappers` (wrappers.dfy): `Option` and `Result`.
- `Js` (js.dfy): the JavaScript values the code handles.
  - Numbers, parsed JSON, `undefined`, and property reads (the last duplicate key wins; reading from `null` throws).
  - Template-literal string conversion.
  - Decimal rendering of integers, with its inverse.
- `Tasks` (tasks.dfy): the task, template and form-target records.
  - Attribute names.
  - The object that `JSON.stringify(task)` writes.
- `TaskForm` (task_form.dfy): the form.
  - The 21-section registry and the draft seeded from the target.
  - Per-kind coercion of typed input and how a stored value is displayed again.
  - The save and delete requests and their outcomes.
- `TaskBox` (task_box.dfy): the overlay rows, the Edit buttons and the drag start.
- `App` (app.dfy): the shell.
  - Catalogue mapping, expansion, the form's callbacks, open and close.
  - The drop that places a node.
  - The event step, the form-phase transitions, and lemmas that join the components.

The code keeps three quirks, and the model keeps them too:

- The create button passes its click event to the form as the task to edit (`Tasks.EditTarget.ClickEvent`). The form therefore stays in edit mode.
  - Its save is `PUT /task/undefined` (`App.CreateButtonSubmitsUpdate`).
  - Its delete is `DELETE /master/undefined`, which removes nothing from the list (`App.CreateButtonDeleteKeepsTasks`).
- Deleting goes to `/master/{id}`, not `/task/{id}` (`TaskForm.RemoveTask`).
- `onSave` is called with the form's draft, not with the request body. The shell ignores that argument and fetches the children again.

### Behaviour worth knowing

- A drop whose payload `JSON.parse` cannot read throws (`App.Drop` returns `Threw`).
  - The parse happens before the check for canvas bounds (front-end/src/App.tsx:209-212).
  - With bounds, a `null` payload also throws, when its `id` is read.
  - `${task.id}` throws when the id's string conversion does: an object with its own `toString` member, such as the payload `{"id":{"toString":0}}`, or an array holding one (`App.DropToStringIdThrows`).
  - Any other parsable payload places a node, even one that is not a task. A payload without an `id` member gets the id `undefined-<timestamp>` (`App.DropForeignPayload`).
- No code checks required fields before submit. `required` is only an attribute on the rendered inputs (front-end/src/components/TaskForm.tsx:212, 234, 260). Any gate is the browser's own form validation, which is not modelled.
- The shell always gives the form a target: a task, or the create button's click event. So every save from the rendered form is a PUT (`App.RenderedFormAlwaysPuts`). The POST branch that adds `parent_id` (front-end/src/components/TaskForm.tsx:135, 142) is modelled in `TaskForm.SaveRequest`, but no sequence of events from the shell reaches it.

## Model

| member | source | states |
|---|---|---|
| Js.ValueText | front-end/src/App.tsx:220 | `${v}` writes `undefined` as the word "undefined", `null` as "null", and a string as itself; it throws exactly when the structured value's conversion does |
| Js.JsonText | front-end/src/App.tsx:220 | `String(j)`: a string is itself; `null` is "null"; booleans are "true"/"false"; an object is "[object Object]" unless it has an own `toString` member, which makes the conversion throw; a number is its `String(number)` text; an array throws exactly when one of its items does, a one-item array is that item's text (empty for `null`), and an empty array is "" |
| Js.JoinFrom | front-end/src/App.tsx:220 | `join(",")` throws exactly when an item's conversion does; otherwise it is the first item's text (empty for `null`), then "," and the join of the rest when there are more |
| Js.LacksProperty | front-end/src/App.tsx:220-223 | reading a property that a non-null value has no own member for gives `undefined` |
| Js.Stringified | front-end/src/components/TaskForm.tsx:107 | `JSON.stringify` keeps `undefined` as `undefined`; any other value becomes its JSON text |
| Js.LastMember | front-end/src/App.tsx:210 | a parsed object's property is `undefined` exactly when no member has that key; otherwise it is the value of the last member with that key |
| Js.Property | front-end/src/App.tsx:220-223 | reading a property throws exactly on `null`; an object yields its member; other values have none of these properties |
| Js.DecimalRoundTrip | front-end/src/App.tsx:220 | reading back the decimal numeral of a timestamp gives the timestamp |
| Js.DecimalInjective | front-end/src/App.tsx:220 | distinct timestamps render as distinct numerals |
| Js.IntText | front-end/src/App.tsx:87 | `id.toString()` of an integer is non-empty: all digits, or `-` followed by digits |
| Js.IntTextInjective | front-end/src/App.tsx:87 | distinct integer ids render as distinct strings |
| Tasks.AttrNamedKeyName | front-end/src/App.tsx:38-61 | each task attribute's property name reads back as that attribute, so no two attributes share a name |
| Tasks.KeyNameOfAttrNamed | front-end/src/App.tsx:38-61 | a property name that denotes an attribute is exactly that attribute's name |
| Tasks.TargetId | front-end/src/components/TaskForm.tsx:134 | `${task.id}` is the task's id when editing a task |
| Tasks.MembersForLookup | front-end/src/components/TaskBox.tsx:24 | in the stringified task, each property reads back as the attribute it names if that attribute was written, and as `undefined` otherwise |
| Tasks.TaskObjectProperty | front-end/src/components/TaskBox.tsx:24 | the object `JSON.stringify(task)` describes answers every property read exactly as the task does |
| TaskForm.RegistryShape | front-end/src/components/TaskForm.tsx:75-97 | 21 sections with distinct attributes, none of them `id` or `label`; exactly dependent_task_slug, repeats_on, bulk_input and email_list are optional; no section has the JSON kind |
| TaskForm.RegistryCoverage | front-end/src/components/TaskForm.tsx:75-97 | the registry edits every task attribute except `id` and `label` |
| TaskForm.Seed | front-end/src/components/TaskForm.tsx:101-125 | opening on a target fills exactly the registered properties; documents hold their JSON text and every other property holds the target's attribute |
| TaskForm.UntargetedFormStartsEmpty | front-end/src/components/TaskForm.tsx:69 | a form that never receives a target keeps its initial draft `{}`, which holds no property |
| TaskForm.Retarget | front-end/src/components/TaskForm.tsx:100-126 | a new target replaces the draft with its seed; an absent target leaves the draft as it was |
| TaskForm.SeedFromTask | front-end/src/components/TaskForm.tsx:101-125 | seeding from a task writes no `id`, `label` or `parent_id`; it stores input_format, output_format and eta as JSON text and copies every other attribute unchanged |
| TaskForm.Coerce | front-end/src/components/TaskForm.tsx:189-263 | a select stores true for TRUE, false for FALSE, and any other choice as its text; a text input stores the typed text verbatim; a number input stores `Number(text)`; the JSON kind stores the parsed value, or the raw text when it does not parse |
| TaskForm.ChangeField | front-end/src/components/TaskForm.tsx:196-252 | a change sets the section's own property to the coerced input and leaves every other property of the draft unchanged |
| TaskForm.RegisteredChangeIgnoresParser | front-end/src/components/TaskForm.tsx:192-215 | no registered field reaches the JSON branch, so editing gives the same draft whatever `JSON.parse` does |
| TaskForm.SelectShown | front-end/src/components/TaskForm.tsx:218-221 | a select shows a boolean as TRUE/FALSE, `undefined` and `null` as the placeholder "", and a string as itself; the render fails exactly when the value's string conversion throws |
| TaskForm.InputShown | front-end/src/components/TaskForm.tsx:247 | an input shows `undefined` and `null` as "", a string as itself, and a boolean as "true"/"false"; the render fails exactly when the value's string conversion throws |
| TaskForm.DisplayRoundTrip | front-end/src/components/TaskForm.tsx:217-252 | choosing an option and displaying the stored value shows the same option (TRUE, FALSE, placeholder or other); a text input shows what was typed |
| TaskForm.SelectStoreOfShown | front-end/src/components/TaskForm.tsx:218-226 | storing what a select displays gives back the stored boolean, or the stored text when it is not TRUE or FALSE |
| TaskForm.SaveRequest | front-end/src/components/TaskForm.tsx:133-152 | with a target: PUT to `/task/{id}` with the draft as body; without one: POST to `/task` with the draft plus `parent_id` = template id and nothing else changed |
| TaskForm.UneditedSaveSendsSeed | front-end/src/components/TaskForm.tsx:101-152 | saving an unedited form opened on a task PUTs the seed to the task's URL: no `id`, `label` or `parent_id`, and the three documents as the JSON text of the task's documents |
| TaskForm.Submit | front-end/src/components/TaskForm.tsx:128-166 | `onSave(draft)` is called exactly on a 2xx response; the alert is shown exactly when the request fails |
| TaskForm.RemoveTask | front-end/src/components/TaskForm.tsx:168-187 | with no target or no confirmation nothing is sent; otherwise DELETE `/master/{id}`; `onDelete(task.id)` exactly on a 2xx response, the alert exactly on a failure |
| TaskBox.TaskList | front-end/src/components/TaskBox.tsx:17 | a missing task list counts as empty |
| TaskBox.Rows | front-end/src/components/TaskBox.tsx:70-106 | the overlay always has at least one row |
| TaskBox.RowsShowTasks | front-end/src/components/TaskBox.tsx:70-106 | the rows show each task once, in order, and nothing else; the single placeholder row appears exactly when there are no tasks |
| TaskBox.RowTasksOfTaskRows | front-end/src/components/TaskBox.tsx:71-95 | one row per task gives back the task list |
| TaskBox.EditPressed | front-end/src/components/TaskBox.tsx:88-93 | a row has an Edit button exactly when it shows a task |
| TaskBox.EditDispatchesRowTask | front-end/src/components/TaskBox.tsx:89 | the Edit button of row i passes task i of the list |
| TaskBox.GetData | front-end/src/App.tsx:210 | reading the transfer gives the stored entry, or the empty string when there is none |
| TaskBox.DragStart | front-end/src/components/TaskBox.tsx:23-26 | the transfer holds only the JSON text of the whole task, under `application/json`, with a move effect |
| App.CatalogueTemplate | front-end/src/App.tsx:86-116 | a catalogue record becomes a template with the record's id as text; its single task has that id, the record's name as label, no name, its documents as JSON text, and every other attribute copied from the record |
| App.CatalogueTemplates | front-end/src/App.tsx:86-116 | one template per record, in response order |
| App.CatalogueIdsDistinct | front-end/src/App.tsx:87 | records with distinct ids give templates with distinct ids |
| App.LoadTemplates | front-end/src/App.tsx:78-122 | a failed load leaves the state exactly as it was; a successful one replaces the catalogue with the mapped records |
| App.ChildTasks | front-end/src/App.tsx:128-140 | a failed child fetch yields no tasks |
| App.Reloaded | front-end/src/App.tsx:145-146 | a reloaded template keeps its id, name and description, holds the tasks fetched for its id, and records that id as `parentTaskId` |
| App.Expand | front-end/src/App.tsx:142-152 | clicking a template selects it, replacing any earlier selection, with its children reloaded; canvas, sidebar, catalogue and form are untouched |
| App.ExpandReplaces | front-end/src/App.tsx:146 | a second click replaces the first selection entirely: the result is as if only the second click happened |
| App.OpenCreate | front-end/src/App.tsx:154-157 | the create button shows the form with the click event as its target; nothing else changes |
| App.OpenEdit | front-end/src/App.tsx:159-163 | Edit shows the form with that task as its target; nothing else changes |
| App.FormSaved | front-end/src/App.tsx:165-182 | without a selection nothing changes; otherwise the selected template's children are fetched again and the form closes |
| App.WithoutId | front-end/src/App.tsx:192 | no task with the removed id remains, and the list never grows |
| App.WithoutIdSubset | front-end/src/App.tsx:192 | every task the filter keeps was in the list |
| App.WithoutIdMembers | front-end/src/App.tsx:192 | a task survives the filter exactly when it was in the list and has a different id |
| App.WithoutIdAppend | front-end/src/App.tsx:192 | filtering distributes over concatenation, so the kept tasks stay in their order |
| App.WithoutAbsentId | front-end/src/App.tsx:192 | filtering by an id no task has changes nothing |
| App.KeepOthers | front-end/src/App.tsx:192 | a string id removes exactly the tasks with that id (`WithoutId`); `!==` against any other value, `undefined` included, keeps every task; every kept task was in the list |
| App.FormDeleted | front-end/src/App.tsx:184-198 | without a selection nothing changes; otherwise exactly the tasks with that id leave the list and the form closes |
| App.CloseOverlay | front-end/src/App.tsx:262 | closing the overlay clears the selection and leaves the form flags, canvas, sidebar and catalogue alone |
| App.CloseForm | front-end/src/App.tsx:272 | closing the form hides it and changes nothing else |
| App.ToggleSidebar | front-end/src/App.tsx:74-76 | the toggle flips the sidebar and changes nothing else |
| App.ToggleSidebarTwice | front-end/src/App.tsx:74-76 | toggling twice restores the state |
| App.FormProps | front-end/src/App.tsx:268-276 | the form is rendered exactly when it is shown and a template is selected, with that template and the current target |
| App.NodeId | front-end/src/App.tsx:220 | a node id is the id text, a "-", and digits that read back as the timestamp |
| App.NodeIdInjective | front-end/src/App.tsx:220 | a node id determines both the task id and the timestamp it was built from |
| App.Drop | front-end/src/App.tsx:205-229 | the drop throws exactly when the payload does not parse, or, while the canvas has bounds, parses to `null` or has an id whose string conversion throws; without bounds nothing changes; otherwise exactly one node is appended, with id `${payload.id}-${now}`, type `default`, the pointer position relative to the canvas and the payload's `label`; nothing else changes |
| App.DragThenDrop | front-end/src/components/TaskBox.tsx:23-26 | dragging a task and dropping it places one node with id `${task.id}-${now}`, the task's label and the canvas-relative position, whenever the codec gives the payload back |
| App.DropTwiceDistinctIds | front-end/src/App.tsx:219-226 | dropping the same task at two different times gives two nodes with different ids |
| App.DropForeignPayload | front-end/src/App.tsx:210-226 | a parsable payload other than `null` places one node exactly when its id converts to a string; without an own `id` member (a non-object, or an object lacking it) its id is `undefined-${now}`; without a `label` member its label is `undefined`; an id that is an object with its own `toString` member makes the drop throw |
| App.DropToStringIdThrows | front-end/src/App.tsx:220 | a worked example of the last clause of `App.DropForeignPayload`: the payload `{"id":{"toString":0}}` makes the drop throw even over the canvas |
| App.Step | front-end/src/App.tsx:231-279 | each of the ten events reaches the handler it is wired to (catalogue load, template click, create, edit, save, delete, overlay close, form close, sidebar toggle, drop); only a drop can throw |
| App.NodesOnlyGrowByDrop | front-end/src/App.tsx:205-229 | no modelled event removes or alters a placed node, and only a drop adds one; changes the canvas itself makes are left out |
| App.LoadAll | front-end/src/App.tsx:78-122 | a series of catalogue loads never touches the canvas, the selection or the form |
| App.LastSuccess | front-end/src/App.tsx:118-120 | there is no success exactly when every load failed; otherwise the records are those of an `Ok` response after which every response failed |
| App.LoadAllKeepsLastSuccess | front-end/src/App.tsx:118-120 | loads replace, never merge: after any series of responses the catalogue is the mapping of the last success, or unchanged when all failed, and nothing else changes |
| App.Run | front-end/src/App.tsx:231-279 | a series of events: no events leave the state as it was; one event gives the handler's new state, or the old state when the handler throws (with `App.RunAppend` this fixes every series); placed nodes are only ever appended to, and without drops they stay the same |
| App.RunAppend | front-end/src/App.tsx:231-279 | running two series in turn is running their concatenation |
| App.StepKeepsFormTarget | front-end/src/App.tsx:154-163 | every event keeps the invariant that a shown form has a target |
| App.RunKeepsFormTarget | front-end/src/App.tsx:154-163 | the invariant holds after any series of events |
| App.RenderedFormAlwaysPuts | front-end/src/components/TaskForm.tsx:133-142 | from the initial state, every rendered form has a target, so its save is a PUT; the POST with `parent_id` is never sent |
| App.PhaseOf | front-end/src/App.tsx:255-276 | the form is rendered exactly in the Editing phase |
| App.PhaseTransitions | front-end/src/App.tsx:142-198 | expanding leaves Collapsed and reopens a form never closed; edit and create open the form over a selection; save, delete and close return to Expanded; closing the overlay collapses |
| App.AfterSubmit | front-end/src/App.tsx:273 | `onSave={handleFormSave}`: the shell changes only when the form calls `onSave`, and then as the save handler does |
| App.SubmitThenReload | front-end/src/components/TaskForm.tsx:155-162 | submitting the rendered form with a 2xx response reloads the selected template's children and closes the form; any other response leaves the shell unchanged |
| App.AfterDelete | front-end/src/App.tsx:274 | `onDelete={handleFormDelete}`: the shell changes only when the form calls `onDelete`, and then as the delete handler does |
| App.DeleteThenFilter | front-end/src/components/TaskForm.tsx:169-185 | a confirmed, successful delete of the edited task removes the tasks with its id and closes the form; otherwise the shell is unchanged |
| App.CreateButtonDeleteKeepsTasks | front-end/src/components/TaskForm.tsx:174-182 | the delete button of the form opened by the create button sends DELETE `/master/undefined`; on success the form closes and the list keeps every task |
| App.EditRowOpensForm | front-end/src/components/TaskBox.tsx:89 | the Edit button of row i renders the form on task i of the selected template |
| App.CreateButtonSubmitsUpdate | front-end/src/components/TaskBox.tsx:64 | the form opened by the create button saves with PUT `/task/undefined`, never with the POST that carries `parent_id` |

## Left out

- The backend service is not part of this model. Its responses are parameters: catalogue records, child-task listings, and HTTP statuses.
- The sidebar component and the shared type declarations file are not part of this model. The sidebar only calls `onToggle` and `onMasterTaskClick`, which `App.ToggleSidebar` and `App.Expand` model.
- Canvas internals are left out: edges, `onConnect`/`addEdge`, `onNodesChange`, `onEdgesChange`, and `fitView`. They belong to the flow library.
- `onDragOver` only sets the drop effect on the browser event, so it is left out.
- `App.Drop`: the positions use exact real arithmetic, not IEEE-754 doubles.
- `Js.Number`: no numeric arithmetic is modelled; `Number(text)` and `String(number)` are host functions.
- `Js.RoundTrips`: the JSON text codec (RFC 8259) is not defined. Its round trip is a hypothesis on each value that needs it.
- `Js.IntText`: it renders integers exactly. For catalogue ids of 10^21 or more, JavaScript would use exponent notation instead.
- Timestamps are natural numbers supplied by the caller.
- `App.CatalogueTemplate`: catalogue ids are assumed to be integers. A record whose `id` is missing, or whose mapping throws for any other reason, is treated like a failed load, which leaves the state unchanged.
- The browser's required-field validation of the rendered form is left out. The code has no gate of its own.
- The form's `loading` flag is left out. It only disables the buttons while a request is in flight.
- `console` logging is left out.
- The ordering of asynchronous responses is left out. A catalogue response is an event of its own. A child-task response is carried by the template click or the save whose handler awaits it, so each such handler gets its own response. Two fetches racing for the same template are not modelled.
- `App.ChildTasks`: a successful child fetch is assumed to return well-formed tasks. The code casts the response without checking it.
- The `parent_id` attribute in the form's own `Task` interface is left out. No form field or seed reads it, and the create request adds it separately.
- The overlay header shows `template.label`, which templates do not have. Rendering is not modelled.
- The form title ("Edit Task"/"Create Task") is not modelled.
- `TaskForm.Coerce`: the JSON kind's display (`JSON.stringify(value, null, 2)` with indentation) is not modelled, because no registered section uses that kind.

=== FILE: app.dfy ===
/**
  The authoring shell: the template catalogue, the selected template with its
  child tasks, the form's visibility and target, and the canvas nodes. Every
  event is a pure transition. Remote responses, `Date.now()` and the canvas
  bounding rectangle are parameters.
 */
module App {
  import opened Wrappers
  import opened Js
  import opened Tasks
  import opened TaskForm
  import opened TaskBox

  // ---------------------------------------------------------------------
  // The template catalogue
  // ---------------------------------------------------------------------

  /** One record of the catalogue response; its id is numeric. */
  datatype CatalogueItem = CatalogueItem(
    id: int,
    name: string,
    description: string,
    slug: string,
    help_text: string,
    input_format: Json,
    output_format: Json,
    dependent_task_slug: string,
    repeats_on: Number,
    bulk_input: bool,
    input_http_method: Number,
    api_endpoint: string,
    api_timeout_in_ms: Number,
    response_type: Number,
    is_json_input_needed: bool,
    task_type: Number,
    is_active: bool,
    is_optional: bool,
    eta: Json,
    service_id: Number,
    email_list: string,
    action: string)

  /** A failed remote call: a non-2xx status or a transport error. */
  datatype FetchError = FetchError

  /** A catalogue record as a template: the id as text, and one task that is
      the record itself, labelled with the record's name, its documents
      replaced by their JSON text. */
  function CatalogueTemplate(item: CatalogueItem, host: Host): (tpl: Template)
    ensures tpl.id == IntText(item.id) && tpl.parentTaskId.None?
    ensures tpl.name == item.name && tpl.description == item.description
    ensures |tpl.tasks| == 1
    ensures tpl.tasks[0].id == tpl.id && tpl.tasks[0].labelText == item.name && tpl.tasks[0].name.None?
    ensures tpl.tasks[0].input_format == JStr(host.stringify(item.input_format))
    ensures tpl.tasks[0].output_format == JStr(host.stringify(item.output_format))
    ensures tpl.tasks[0].eta == JStr(host.stringify(item.eta))
    ensures var t := tpl.tasks[0];
      && t.description == item.description && t.slug == item.slug && t.help_text == item.help_text
      && t.dependent_task_slug == item.dependent_task_slug && t.repeats_on == item.repeats_on
      && t.bulk_input == item.bulk_input && t.input_http_method == item.input_http_method
      && t.api_endpoint == item.api_endpoint && t.api_timeout_in_ms == item.api_timeout_in_ms
      && t.response_type == item.response_type && t.is_json_input_needed == item.is_json_input_needed
      && t.task_type == item.task_type && t.is_active == item.is_active
      && t.is_optional == item.is_optional && t.service_id == item.service_id
      && t.email_list == item.email_list && t.action == item.action
  {
    var id := IntText(item.id);
    var task := Task(
      id, None, item.name, item.description, item.slug, item.help_text,
      JStr(host.stringify(item.input_format)), JStr(host.stringify(item.output_format)),
      item.dependent_task_slug, item.repeats_on, item.bulk_input,
      item.input_http_method, item.api_endpoint, item.api_timeout_in_ms,
      item.response_type, item.is_json_input_needed, item.task_type,
      item.is_active, item.is_optional, JStr(host.stringify(item.eta)),
      item.service_id, item.email_list, item.action);
    Template(id, item.name, item.description, [task], None)
  }

  /** The catalogue response as templates, one per record, in order. */
  function CatalogueTemplates(items: seq<CatalogueItem>, host: Host): (tpls: seq<Template>)
    ensures |tpls| == |items|
    ensures forall i :: 0 <= i < |items| ==> tpls[i] == CatalogueTemplate(items[i], host)
  {
    seq(|items|, i requires 0 <= i < |items| => CatalogueTemplate(items[i], host))
  }

  /** Records with distinct ids become templates with distinct ids. */
  lemma CatalogueIdsDistinct(items: seq<CatalogueItem>, host: Host, i: nat, j: nat)
    requires i < |items| && j < |items| && items[i].id != items[j].id
    ensures CatalogueTemplates(items, host)[i].id != CatalogueTemplates(items, host)[j].id
  {
    if IntText(items[i].id) == IntText(items[j].id) {
      IntTextInjective(items[i].id, items[j].id);
    }
  }

  // ---------------------------------------------------------------------
  // Application state
  // ---------------------------------------------------------------------

  datatype Position = Position(x: real, y: real)

  /** A placed node: its synthesized id, node type, canvas position and the
      label copied from the dropped task. */
  datatype Node = Node(id: string, nodeType: string, position: Position, labelValue: Value)

  /** The canvas's bounding rectangle, as far as placement needs it. */
  datatype Rect = Rect(left: real, top: real)

  /** The response to the child-task fetch `GET /master/task/{id}`. */
  type Children = Result<seq<Task>, FetchError>

  datatype AppState = AppState(
    nodes: seq<Node>,
    sidebarOpen: bool,
    masterTasks: seq<Template>,
    selected: Option<Template>,
    showForm: bool,
    editing: Option<EditTarget>)

  const Initial: AppState := AppState([], true, [], None, false, None)

  /** A handler either finishes with a new state or throws. */
  datatype Handled = Handled(state: AppState) | Threw

  /** Loading the catalogue: a success replaces the templates wholesale with
      the mapped response; a failure changes nothing. */
  function LoadTemplates(s: AppState, response: Result<seq<CatalogueItem>, FetchError>, host: Host): (s': AppState)
    ensures response.Err? ==> s' == s
    ensures response.Ok? ==> s' == s.(masterTasks := CatalogueTemplates(response.value, host))
  {
    match response
    case Ok(items) => s.(masterTasks := CatalogueTemplates(items, host))
    case Err(_) => s
  }

  /** The child tasks a fetch yields: the listing, or none on failure. */
  function ChildTasks(response: Children): (ts: seq<Task>)
    ensures response.Err? ==> ts == []
    ensures response.Ok? ==> ts == response.value
  {
    match response
    case Ok(ts) => ts
    case Err(_) => []
  }

  /** The template `tpl` with its children reloaded; `children` is the
      response to the fetch for `tpl.id`. */
  function Reloaded(tpl: Template, children: Children): (r: Template)
    ensures r.id == tpl.id && r.name == tpl.name && r.description == tpl.description
    ensures r.tasks == ChildTasks(children) && r.parentTaskId == Some(tpl.id)
  {
    tpl.(tasks := ChildTasks(children), parentTaskId := Some(tpl.id))
  }

  /** Clicking a template: it becomes the selection, replacing any other,
      with its children fetched for its id; nothing else changes. */
  function Expand(s: AppState, tpl: Template, children: Children): (s': AppState)
    ensures s'.selected.Some? && s'.selected.value == Reloaded(tpl, children)
    ensures SameCanvasAndCatalogue(s', s) && s'.showForm == s.showForm && s'.editing == s.editing
  {
    s.(selected := Some(Reloaded(tpl, children)))
  }

  /** A later click replaces the earlier selection outright: nothing of the
      first expansion survives the second. */
  lemma ExpandReplaces(s: AppState, t1: Template, c1: Children, t2: Template, c2: Children)
    ensures Expand(Expand(s, t1, c1), t2, c2) == Expand(s, t2, c2)
  {
  }

  /** `s'` agrees with `s` on the canvas, the sidebar and the catalogue. */
  predicate SameCanvasAndCatalogue(s': AppState, s: AppState) {
    s'.nodes == s.nodes && s'.sidebarOpen == s.sidebarOpen && s'.masterTasks == s.masterTasks
  }

  /** The create button: the click event becomes the form's target. */
  function OpenCreate(s: AppState): (s': AppState)
    ensures s'.showForm && s'.editing == Some(ClickEvent)
    ensures SameCanvasAndCatalogue(s', s) && s'.selected == s.selected
  {
    s.(editing := Some(ClickEvent), showForm := true)
  }

  /** An Edit button: its task becomes the form's target. */
  function OpenEdit(s: AppState, t: Task): (s': AppState)
    ensures s'.showForm && s'.editing == Some(Existing(t))
    ensures SameCanvasAndCatalogue(s', s) && s'.selected == s.selected
  {
    s.(editing := Some(Existing(t)), showForm := true)
  }

  /** `onSave`: without a selection nothing happens; otherwise the children
      of the selected template are fetched again, replace the list, and the
      form closes. The saved values themselves are not used. `children` is
      the response to the fetch for the selected template's id. */
  function FormSaved(s: AppState, data: Draft, children: Children): (s': AppState)
    ensures s.selected.None? ==> s' == s
    ensures s.selected.Some? ==>
      s' == s.(selected := Some(Reloaded(s.selected.value, children)), showForm := false)
  {
    match s.selected
    case None => s
    case Some(tpl) => s.(selected := Some(Reloaded(tpl, children)), showForm := false)
  }

  /** The selected template's tasks without those whose id is `id`. */
  function WithoutId(ts: seq<Task>, id: string): (r: seq<Task>)
    ensures |r| <= |ts|
    ensures forall i :: 0 <= i < |r| ==> r[i].id != id
    decreases |ts|
  {
    if |ts| == 0 then []
    else (if ts[0].id == id then [] else [ts[0]]) + WithoutId(ts[1..], id)
  }

  /** A task is kept exactly when it was in the list and has another id. */
  lemma {:induction false} WithoutIdMembers(ts: seq<Task>, id: string, t: Task)
    ensures t in WithoutId(ts, id) <==> t in ts && t.id != id
    decreases |ts|
  {
    if |ts| > 0 {
      WithoutIdMembers(ts[1..], id, t);
      assert ts == [ts[0]] + ts[1..];
    }
  }

  /** Every kept task was in the list. */
  lemma WithoutIdSubset(ts: seq<Task>, id: string)
    ensures forall t :: t in WithoutId(ts, id) ==> t in ts
  {
    forall t | t in WithoutId(ts, id) ensures t in ts {
      WithoutIdMembers(ts, id, t);
    }
  }

  /** Removing by id distributes over concatenation, so the kept tasks stay
      in their original order. */
  lemma {:induction false} WithoutIdAppend(a: seq<Task>, b: seq<Task>, id: string)
    ensures WithoutId(a + b, id) == WithoutId(a, id) + WithoutId(b, id)
    decreases |a|
  {
    if |a| > 0 {
      var head := if a[0].id == id then [] else [a[0]];
      assert (a + b)[0] == a[0] && (a + b)[1..] == a[1..] + b;
      assert WithoutId(a + b, id) == head + WithoutId(a[1..] + b, id);
      WithoutIdAppend(a[1..], b, id);
      assert WithoutId(a, id) == head + WithoutId(a[1..], id);
    } else {
      assert a + b == b;
    }
  }

  /** Removing an id no task has changes nothing. */
  lemma {:induction false} WithoutAbsentId(ts: seq<Task>, id: string)
    requires forall i :: 0 <= i < |ts| ==> ts[i].id != id
    ensures WithoutId(ts, id) == ts
    decreases |ts|
  {
    if |ts| > 0 {
      WithoutAbsentId(ts[1..], id);
    }
  }

  /** `tasks.filter(t => t.id !== taskId)`: task ids are strings, so only a
      string `taskId` can remove anything. */
  function KeepOthers(ts: seq<Task>, taskId: Value): (r: seq<Task>)
    ensures taskId.Defined? && taskId.json.JStr? ==> r == WithoutId(ts, taskId.json.s)
    ensures !(taskId.Defined? && taskId.json.JStr?) ==> r == ts
    ensures forall t :: t in r ==> t in ts
  {
    match taskId
    case Defined(JStr(id)) => WithoutIdSubset(ts, id); WithoutId(ts, id)
    case _ => ts
  }

  /** `onDelete`: without a selection nothing happens; otherwise exactly the
      tasks with that id leave the list and the form closes. */
  function FormDeleted(s: AppState, taskId: Value): (s': AppState)
    ensures s.selected.None? ==> s' == s
    ensures s.selected.Some? ==>
      && s'.selected.Some?
      && s'.selected.value == s.selected.value.(tasks := KeepOthers(s.selected.value.tasks, taskId))
      && s' == s.(selected := s'.selected, showForm := false)
  {
    match s.selected
    case None => s
    case Some(tpl) => s.(selected := Some(tpl.(tasks := KeepOthers(tpl.tasks, taskId))), showForm := false)
  }

  /** Closing the overlay clears the selection. */
  function CloseOverlay(s: AppState): (s': AppState)
    ensures s'.selected.None?
    ensures SameCanvasAndCatalogue(s', s) && s'.showForm == s.showForm && s'.editing == s.editing
  {
    s.(selected := None)
  }

  /** Closing the form hides it. */
  function CloseForm(s: AppState): (s': AppState)
    ensures !s'.showForm
    ensures SameCanvasAndCatalogue(s', s) && s'.selected == s.selected && s'.editing == s.editing
  {
    s.(showForm := false)
  }

  function ToggleSidebar(s: AppState): (s': AppState)
    ensures s'.sidebarOpen != s.sidebarOpen
    ensures s'.nodes == s.nodes && s'.masterTasks == s.masterTasks && s'.selected == s.selected
    ensures s'.showForm == s.showForm && s'.editing == s.editing
  {
    s.(sidebarOpen := !s.sidebarOpen)
  }

  /** Toggling twice restores the state. */
  lemma ToggleSidebarTwice(s: AppState)
    ensures ToggleSidebar(ToggleSidebar(s)) == s
  {
  }

  /** What the form is rendered with, if it is rendered: the selected
      template and the current target. */
  function FormProps(s: AppState): (r: Option<(Template, Option<EditTarget>)>)
    ensures r.Some? <==> s.showForm && s.selected.Some?
    ensures r.Some? ==> r.value.0 == s.selected.value && r.value.1 == s.editing
  {
    if s.showForm && s.selected.Some? then Some((s.selected.value, s.editing)) else None
  }

  // ---------------------------------------------------------------------
  // Dropping a task on the canvas
  // ---------------------------------------------------------------------

  /** `${id}-${timestamp}`: the id text, a "-", then the timestamp's digits. */
  function NodeId(prefix: string, now: nat): (r: string)
    ensures |r| > |prefix| + 1 && r[..|prefix|] == prefix && r[|prefix|] == '-'
    ensures AllDigits(r[|prefix| + 1..]) && DigitsValue(r[|prefix| + 1..]) == now
  {
    assert (prefix + "-" + Decimal(now))[|prefix| + 1..] == Decimal(now);
    DecimalRoundTrip(now);
    prefix + "-" + Decimal(now)
  }

  /** A node id determines both the id it was built from and the timestamp.
      The "-" after the longer of two prefixes would fall among the other's
      timestamp digits, so the prefixes have one length and are equal; the
      digits then read back as one timestamp. */
  lemma NodeIdInjective(a: string, t1: nat, b: string, t2: nat)
    requires NodeId(a, t1) == NodeId(b, t2)
    ensures a == b && t1 == t2
  {
  }

  /** A drop on the canvas. The payload is parsed first: an unparsable one
      throws. Without canvas bounds nothing changes. Otherwise exactly one
      node is appended, at the pointer position relative to the canvas,
      labelled with the payload's label. Reading the id of a `null` payload
      throws, and so does `${id}` when the id's string conversion does. */
  function Drop(s: AppState, dt: DataTransfer, clientX: real, clientY: real,
                bounds: Option<Rect>, now: nat, host: Host): (h: Handled)
    ensures var p := host.parse(GetData(dt, JsonFormat));
      h.Threw? <==>
        (p.None? || (bounds.Some? && (p.value.JNull? || ValueText(Property(p.value, "id").value, host).None?)))
    ensures host.parse(GetData(dt, JsonFormat)).Some? && bounds.None? ==> h == Handled(s)
    ensures h.Handled? && bounds.Some? ==>
      && |h.state.nodes| == |s.nodes| + 1
      && h.state.nodes[..|s.nodes|] == s.nodes
      && h.state == s.(nodes := h.state.nodes)
    ensures var p := host.parse(GetData(dt, JsonFormat));
      && h.Handled? && bounds.Some? && p.Some? && !p.value.JNull?
      && ValueText(Property(p.value, "id").value, host).Some? ==>
      h.state.nodes[|s.nodes|] == Node(
        NodeId(ValueText(Property(p.value, "id").value, host).value, now), "default",
        Position(clientX - bounds.value.left, clientY - bounds.value.top),
        Property(p.value, "label").value)
  {
    match host.parse(GetData(dt, JsonFormat))
    case None => Threw
    case Some(task) =>
      if bounds.None? then Handled(s)
      else if task.JNull? then Threw
      else
        var id := Property(task, "id").value;
        var labelValue := Property(task, "label").value;
        match ValueText(id, host)
        case None => Threw
        case Some(idText) =>
          var position := Position(clientX - bounds.value.left, clientY - bounds.value.top);
          var node := Node(NodeId(idText, now), "default", position, labelValue);
          Handled(s.(nodes := s.nodes + [node]))
  }

  /** Dragging a task from the list and dropping it on the canvas places one
      node with id `${task.id}-${now}` and the task's label, at the pointer
      position relative to the canvas, whenever the JSON codec gives the
      payload back. */
  lemma DragThenDrop(s: AppState, t: Task, clientX: real, clientY: real, bounds: Rect, now: nat, host: Host)
    requires RoundTrips(host, TaskObject(t))
    ensures Drop(s, DragStart(t, host), clientX, clientY, Some(bounds), now, host)
      == Handled(s.(nodes := s.nodes + [Node(t.id + "-" + Decimal(now), "default",
                  Position(clientX - bounds.left, clientY - bounds.top), Text(t.labelText))]))
  {
    TaskObjectProperty(t, "id");
    TaskObjectProperty(t, "label");
    AttrNamedKeyName(Id);
    AttrNamedKeyName(Label);
  }

  /** Dropping the same task twice, at different times, gives two nodes with
      different ids. */
  lemma DropTwiceDistinctIds(s: AppState, t: Task, x1: real, y1: real, now1: nat,
                             x2: real, y2: real, now2: nat, bounds: Rect, host: Host)
    requires RoundTrips(host, TaskObject(t)) && now1 != now2
    ensures var h1 := Drop(s, DragStart(t, host), x1, y1, Some(bounds), now1, host);
      && h1.Handled?
      && var h2 := Drop(h1.state, DragStart(t, host), x2, y2, Some(bounds), now2, host);
      && h2.Handled?
      && |h2.state.nodes| == |s.nodes| + 2
      && h2.state.nodes[|s.nodes|].id != h2.state.nodes[|s.nodes| + 1].id
  {
    DragThenDrop(s, t, x1, y1, bounds, now1, host);
    var h1 := Drop(s, DragStart(t, host), x1, y1, Some(bounds), now1, host);
    DragThenDrop(h1.state, t, x2, y2, bounds, now2, host);
    if NodeId(t.id, now1) == NodeId(t.id, now2) {
      NodeIdInjective(t.id, now1, t.id, now2);
    }
  }

  /** Any parsable payload other than `null` whose id converts to a string
      places a node, even one that is not a task. A payload without an own
      `id` property (any non-object, or an object with no `id` member) gives
      the id `undefined-${now}`; one without a `label` property gives an
      `undefined` label. An id that is an object with its own `toString`
      member cannot be converted, and the drop throws. */
  lemma DropForeignPayload(s: AppState, dt: DataTransfer, x: real, y: real, bounds: Rect, now: nat, host: Host)
    requires host.parse(GetData(dt, JsonFormat)).Some?
    requires !host.parse(GetData(dt, JsonFormat)).value.JNull?
    ensures var p := host.parse(GetData(dt, JsonFormat)).value;
      var h := Drop(s, dt, x, y, Some(bounds), now, host);
      && (h.Handled? <==> ValueText(Property(p, "id").value, host).Some?)
      && (h.Handled? ==> |h.state.nodes| == |s.nodes| + 1)
    ensures var p := host.parse(GetData(dt, JsonFormat)).value;
      var h := Drop(s, dt, x, y, Some(bounds), now, host);
      Lacks(p, "id") ==> h.Handled? && h.state.nodes[|s.nodes|].id == "undefined-" + Decimal(now)
    ensures var p := host.parse(GetData(dt, JsonFormat)).value;
      var h := Drop(s, dt, x, y, Some(bounds), now, host);
      Lacks(p, "label") && h.Handled? ==> h.state.nodes[|s.nodes|].labelValue == Undefined
    ensures var p := host.parse(GetData(dt, JsonFormat)).value;
      var id := Property(p, "id").value;
      id.Defined? && id.json.JObj? && !Lacks(id.json, "toString") ==>
      Drop(s, dt, x, y, Some(bounds), now, host).Threw?
  {
    var p := host.parse(GetData(dt, JsonFormat)).value;
    var h := Drop(s, dt, x, y, Some(bounds), now, host);
    if Lacks(p, "id") {
      LacksProperty(p, "id");
      assert ValueText(Property(p, "id").value, host) == Some("undefined");
      var node := h.state.nodes[|s.nodes|];
      assert node.id == NodeId("undefined", now);
      assert NodeId("undefined", now) == "undefined-" + Decimal(now);
    }
    if Lacks(p, "label") && h.Handled? {
      LacksProperty(p, "label");
      assert h.state.nodes[|s.nodes|].labelValue == Property(p, "label").value;
    }
  }

  /** A worked example of the last clause of `DropForeignPayload`: the
      payload `{"id":{"toString":0}}` parses, but its id cannot be converted
      to a string, so the drop throws even with canvas bounds. */
  lemma DropToStringIdThrows(s: AppState, dt: DataTransfer, x: real, y: real, bounds: Rect, now: nat, host: Host)
    requires host.parse(GetData(dt, JsonFormat))
      == Some(JObj([Member("id", JObj([Member("toString", JNum(Finite(0.0)))]))]))
    ensures Drop(s, dt, x, y, Some(bounds), now, host).Threw?
  {
    var inner := JObj([Member("toString", JNum(Finite(0.0)))]);
    assert !Lacks(inner, "toString") by { assert inner.members[0].key == "toString"; }
    assert Property(host.parse(GetData(dt, JsonFormat)).value, "id") == Some(Defined(inner));
  }

  // ---------------------------------------------------------------------
  // Events
  // ---------------------------------------------------------------------

  /** The events the shell handles. A click on a template and a save each
      carry the response of the child fetch their handler makes, as a load
      carries the catalogue response. */
  datatype Event =
    | CatalogueFetched(response: Result<seq<CatalogueItem>, FetchError>)
    | TemplateClicked(template: Template, children: Children)
    | CreateClicked
    | EditClicked(task: Task)
    | Saved(data: Draft, reloaded: Children)
    | Deleted(taskId: Value)
    | OverlayClosed
    | FormClosed
    | SidebarToggled
    | Dropped(dt: DataTransfer, clientX: real, clientY: real, bounds: Option<Rect>, now: nat)

  /** The shell's response to one event: each event reaches the handler it
      is wired to, and only a drop can throw. */
  function Step(s: AppState, e: Event, host: Host): (h: Handled)
    ensures h.Threw? ==> e.Dropped?
    ensures e.CatalogueFetched? ==> h == Handled(LoadTemplates(s, e.response, host))
    ensures e.TemplateClicked? ==> h == Handled(Expand(s, e.template, e.children))
    ensures e.CreateClicked? ==> h == Handled(OpenCreate(s))
    ensures e.EditClicked? ==> h == Handled(OpenEdit(s, e.task))
    ensures e.Saved? ==> h == Handled(FormSaved(s, e.data, e.reloaded))
    ensures e.Deleted? ==> h == Handled(FormDeleted(s, e.taskId))
    ensures e.OverlayClosed? ==> h == Handled(CloseOverlay(s))
    ensures e.FormClosed? ==> h == Handled(CloseForm(s))
    ensures e.SidebarToggled? ==> h == Handled(ToggleSidebar(s))
    ensures e.Dropped? ==> h == Drop(s, e.dt, e.clientX, e.clientY, e.bounds, e.now, host)
  {
    match e
    case CatalogueFetched(r) => Handled(LoadTemplates(s, r, host))
    case TemplateClicked(tpl, c) => Handled(Expand(s, tpl, c))
    case CreateClicked => Handled(OpenCreate(s))
    case EditClicked(t) => Handled(OpenEdit(s, t))
    case Saved(d, c) => Handled(FormSaved(s, d, c))
    case Deleted(id) => Handled(FormDeleted(s, id))
    case OverlayClosed => Handled(CloseOverlay(s))
    case FormClosed => Handled(CloseForm(s))
    case SidebarToggled => Handled(ToggleSidebar(s))
    case Dropped(dt, x, y, b, now) => Drop(s, dt, x, y, b, now, host)
  }

  /** Placed nodes are independent of the task lifecycle: only a drop adds
      to them, and no event removes or alters one. */
  lemma NodesOnlyGrowByDrop(s: AppState, e: Event, host: Host)
    ensures var h := Step(s, e, host);
      h.Handled? ==> |h.state.nodes| >= |s.nodes| && h.state.nodes[..|s.nodes|] == s.nodes
    ensures !e.Dropped? ==> Step(s, e, host).Handled? && Step(s, e, host).state.nodes == s.nodes
  {
    match e
    case Dropped(dt, x, y, b, now) =>
    case _ =>
  }

  // ---------------------------------------------------------------------
  // Sequences of events
  // ---------------------------------------------------------------------

  /** The catalogue after a series of load responses, in arrival order. */
  function LoadAll(s: AppState, responses: seq<Result<seq<CatalogueItem>, FetchError>>, host: Host): (s': AppState)
    ensures s'.nodes == s.nodes && s'.selected == s.selected && s'.showForm == s.showForm
    decreases |responses|
  {
    if |responses| == 0 then s
    else LoadTemplates(LoadAll(s, responses[..|responses| - 1], host), responses[|responses| - 1], host)
  }

  /** The records of the last successful response, if any succeeded. */
  function LastSuccess(responses: seq<Result<seq<CatalogueItem>, FetchError>>): (r: Option<seq<CatalogueItem>>)
    ensures r.None? <==> forall i :: 0 <= i < |responses| ==> responses[i].Err?
    ensures r.Some? ==>
      exists k :: 0 <= k < |responses| && responses[k] == Ok(r.value)
        && forall j :: k < j < |responses| ==> responses[j].Err?
    decreases |responses|
  {
    if |responses| == 0 then None
    else if responses[|responses| - 1].Ok? then
      assert responses[|responses| - 1] == Ok(responses[|responses| - 1].value);
      Some(responses[|responses| - 1].value)
    else
      var front := responses[..|responses| - 1];
      var r := LastSuccess(front);
      assert forall i :: 0 <= i < |front| ==> front[i] == responses[i];
      assert responses[|responses| - 1].Err?;
      r
  }

  /** Loads replace and never merge: after any series of responses the
      catalogue is the mapping of the last success, or what it was before
      when every load failed; nothing else in the state changes. */
  lemma {:induction false} LoadAllKeepsLastSuccess(s: AppState, responses: seq<Result<seq<CatalogueItem>, FetchError>>, host: Host)
    ensures LoadAll(s, responses, host)
      == (match LastSuccess(responses)
          case Some(items) => s.(masterTasks := CatalogueTemplates(items, host))
          case None => s)
    decreases |responses|
  {
    if |responses| > 0 {
      LoadAllKeepsLastSuccess(s, responses[..|responses| - 1], host);
    }
  }

  /** The state after a series of events, in order. A handler that throws
      leaves the state as it was. Placed nodes are only ever added to, and
      without drops they stay exactly as they were. */
  function Run(s: AppState, events: seq<Event>, host: Host): (s': AppState)
    ensures |events| == 0 ==> s' == s
    ensures |events| == 1 ==>
      s' == (var h := Step(s, events[0], host); if h.Handled? then h.state else s)
    ensures |s'.nodes| >= |s.nodes| && s'.nodes[..|s.nodes|] == s.nodes
    ensures (forall i :: 0 <= i < |events| ==> !events[i].Dropped?) ==> s'.nodes == s.nodes
    decreases |events|
  {
    if |events| == 0 then s
    else
      var h := Step(s, events[0], host);
      NodesOnlyGrowByDrop(s, events[0], host);
      var next := if h.Handled? then h.state else s;
      var r := Run(next, events[1..], host);
      assert r.nodes[..|s.nodes|] == r.nodes[..|next.nodes|][..|s.nodes|];
      r
  }

  /** Running two series one after the other is running their concatenation. */
  lemma {:induction false} RunAppend(s: AppState, a: seq<Event>, b: seq<Event>, host: Host)
    ensures Run(s, a + b, host) == Run(Run(s, a, host), b, host)
    decreases |a|
  {
    if |a| == 0 {
      assert a + b == b;
    } else {
      var h := Step(s, a[0], host);
      var next := if h.Handled? then h.state else s;
      assert (a + b)[0] == a[0] && (a + b)[1..] == a[1..] + b;
      RunAppend(next, a[1..], b, host);
    }
  }

  /** Whenever the form is shown, something was passed to it to edit. */
  predicate FormHasTarget(s: AppState) {
    s.showForm ==> s.editing.Some?
  }

  /** Every event keeps the form's target in place while it is shown. */
  lemma StepKeepsFormTarget(s: AppState, e: Event, host: Host)
    requires FormHasTarget(s)
    ensures var h := Step(s, e, host); h.Handled? ==> FormHasTarget(h.state)
  {
  }

  lemma {:induction false} RunKeepsFormTarget(s: AppState, events: seq<Event>, host: Host)
    requires FormHasTarget(s)
    ensures FormHasTarget(Run(s, events, host))
    decreases |events|
  {
    if |events| > 0 {
      var h := Step(s, events[0], host);
      StepKeepsFormTarget(s, events[0], host);
      RunKeepsFormTarget(if h.Handled? then h.state else s, events[1..], host);
    }
  }

  /** From the initial state, every rendered form saves with PUT: the shell
      always passes a target (a task or the create button's click event), so
      the POST that adds `parent_id` is never sent. */
  lemma RenderedFormAlwaysPuts(events: seq<Event>, host: Host, d: Draft)
    ensures var s := Run(Initial, events, host);
      FormProps(s).Some? ==>
        && FormProps(s).value.1.Some?
        && SaveRequest(FormProps(s).value.0, FormProps(s).value.1, d).verb == Put
  {
    RunKeepsFormTarget(Initial, events, host);
  }

  /** The form's phase: no template selected, a template expanded, or the
      form open over it. */
  datatype Phase = Collapsed | Expanded | Editing

  function PhaseOf(s: AppState): (p: Phase)
    ensures p == Editing <==> FormProps(s).Some?
  {
    if s.selected.None? then Collapsed else if s.showForm then Editing else Expanded
  }

  /** The phase transitions: expanding always leaves Collapsed (and reopens
      the form if it was never closed); edit and create open the form over a
      selection; save and delete with a selection, and closing the form,
      return to Expanded; closing the overlay collapses. */
  lemma PhaseTransitions(s: AppState, tpl: Template, t: Task, d: Draft, id: Value, c: Children)
    ensures PhaseOf(Expand(s, tpl, c)) == (if s.showForm then Editing else Expanded)
    ensures s.selected.Some? ==> PhaseOf(OpenEdit(s, t)) == Editing && PhaseOf(OpenCreate(s)) == Editing
    ensures s.selected.Some? ==> PhaseOf(FormSaved(s, d, c)) == Expanded
    ensures s.selected.Some? ==> PhaseOf(FormDeleted(s, id)) == Expanded
    ensures s.selected.Some? ==> PhaseOf(CloseForm(s)) == Expanded
    ensures PhaseOf(CloseOverlay(s)) == Collapsed
  {
  }

  // ---------------------------------------------------------------------
  // The form wired into the shell
  // ---------------------------------------------------------------------

  /** The shell after a submit, with `onSave={handleFormSave}`: the shell
      changes only if the form called `onSave`; `children` answers the
      handler's re-fetch. */
  function AfterSubmit(s: AppState, o: SaveOutcome, children: Children): (s': AppState)
    ensures o.saved.None? ==> s' == s
    ensures o.saved.Some? ==> s' == FormSaved(s, o.saved.value, children)
  {
    match o.saved
    case Some(d) => FormSaved(s, d, children)
    case None => s
  }

  /** Submitting the open form: a 2xx response re-fetches the children of the
      selected template, replaces the list and closes the form; any other
      outcome leaves the shell exactly as it was. */
  lemma SubmitThenReload(s: AppState, d: Draft, response: Transport, children: Children)
    requires FormProps(s).Some?
    ensures var (tpl, target) := FormProps(s).value;
      var s' := AfterSubmit(s, Submit(tpl, target, d, response), children);
      && (Succeeded(response) ==>
            && !s'.showForm
            && s'.selected == Some(Reloaded(tpl, children))
            && s'.selected.value.tasks == ChildTasks(children))
      && (!Succeeded(response) ==> s' == s)
  {
  }

  /** The shell after the delete button, with `onDelete={handleFormDelete}`:
      the shell changes only if the form called `onDelete`. */
  function AfterDelete(s: AppState, o: DeleteOutcome): (s': AppState)
    ensures o.deleted.None? ==> s' == s
    ensures o.deleted.Some? ==> s' == FormDeleted(s, o.deleted.value)
  {
    match o.deleted
    case Some(id) => FormDeleted(s, id)
    case None => s
  }

  /** Deleting the edited task: with confirmation and a 2xx response the
      tasks with its id leave the list and the form closes; unconfirmed or
      failed, the shell is unchanged. */
  lemma DeleteThenFilter(s: AppState, t: Task, confirmed: bool, response: Transport)
    requires FormProps(s).Some? && s.editing == Some(Existing(t))
    ensures var s' := AfterDelete(s, RemoveTask(s.editing, confirmed, response));
      && (confirmed && Succeeded(response) ==>
            && !s'.showForm
            && s'.selected.value.tasks == WithoutId(s.selected.value.tasks, t.id))
      && (!confirmed || !Succeeded(response) ==> s' == s)
  {
  }

  /** The delete button of the form opened by the create button sends
      DELETE `/master/undefined`; when that succeeds the form closes but the
      list keeps every task, since `undefined` matches no id. */
  lemma CreateButtonDeleteKeepsTasks(s: AppState, response: Transport)
    requires s.selected.Some? && Succeeded(response)
    ensures RemoveTask(Some(ClickEvent), true, response).request
      == Some(Request(Delete, Origin + "/master/undefined", None))
    ensures AfterDelete(OpenCreate(s), RemoveTask(OpenCreate(s).editing, true, response))
      == OpenCreate(s).(showForm := false)
  {
    var s1 := OpenCreate(s);
    assert TargetId(ClickEvent) == "undefined";
    assert Origin + "/master/" + "undefined" == Origin + "/master/undefined";
    assert TargetAttribute(ClickEvent, Id) == Undefined;
    var tpl := s1.selected.value;
    assert tpl.(tasks := KeepOthers(tpl.tasks, Undefined)) == tpl;
  }

  /** The Edit button of row `i` of the overlay opens the form on that
      row's task, over the selected template. */
  lemma EditRowOpensForm(s: AppState, i: nat)
    requires s.selected.Some? && i < |s.selected.value.tasks|
    ensures var rows := Rows(Some(s.selected.value.tasks));
      && i < |rows|
      && EditPressed(rows, i).Some?
      && FormProps(OpenEdit(s, EditPressed(rows, i).value))
         == Some((s.selected.value, Some(Existing(s.selected.value.tasks[i]))))
  {
    EditDispatchesRowTask(Some(s.selected.value.tasks), i);
  }

  /** The create button opens the form on its click event rather than on no
      task, so the form is in edit mode: its save is a PUT to
      `/task/undefined`, never the POST with a `parent_id`. */
  lemma CreateButtonSubmitsUpdate(s: AppState, d: Draft)
    requires s.selected.Some?
    ensures var (tpl, target) := FormProps(OpenCreate(s)).value;
      && target == Some(ClickEvent)
      && SaveRequest(tpl, target, d) == Request(Put, Origin + "/task/undefined", Some(d))
  {
  }
}

=== FILE: js.dfy ===
/**
  The slice of JavaScript value semantics the front-end relies on: numbers,
  parsed JSON documents, `undefined`, property reads, string conversion and
  the decimal rendering of integers. The JSON text codec (RFC 8259), `Number()`
  on text and `String()` on a number are not defined here: they are fields of
  a `Host` and every operation that needs them takes the host as a parameter.
 */
module Js {
  import opened Wrappers

  /** A JavaScript number. Only the special values are distinguished; the
      IEEE-754 arithmetic of finite values is not modelled. */
  datatype Number = NaN | Infinite(negative: bool) | Finite(value: real)

  /** A structured value as `JSON.parse` produces it. An object keeps its
      members in insertion order. */
  datatype Json =
    | JNull
    | JBool(b: bool)
    | JNum(n: Number)
    | JStr(s: string)
    | JArr(items: seq<Json>)
    | JObj(members: seq<Member>)

  datatype Member = Member(key: string, value: Json)

  /** Any value a property can hold: `undefined` or a structured value. */
  datatype Value = Undefined | Defined(json: Json)

  /** The platform functions the front-end calls but this model does not define. */
  datatype Host = Host(
    toNumber: string -> Number,       // Number(text)
    numberText: Number -> string,     // String(number)
    stringify: Json -> string,        // JSON.stringify(value)
    parse: string -> Option<Json>)    // JSON.parse(text); None when it throws

  function Text(s: string): Value { Defined(JStr(s)) }
  function Bool(b: bool): Value { Defined(JBool(b)) }
  function Num(n: Number): Value { Defined(JNum(n)) }

  /** The codec gives back exactly `j` after a trip through its text form. */
  predicate RoundTrips(host: Host, j: Json) {
    host.parse(host.stringify(j)) == Some(j)
  }

  /** `JSON.stringify(v)` kept as a value: `undefined` stays `undefined`,
      anything else becomes its JSON text. */
  function Stringified(v: Value, host: Host): (r: Value)
    ensures r.Undefined? <==> v.Undefined?
    ensures v.Defined? ==> r == Text(host.stringify(v.json))
  {
    match v
    case Undefined => Undefined
    case Defined(j) => Text(host.stringify(j))
  }

  /** The value of the LAST member named `key`, as `JSON.parse` keeps the
      last of duplicated keys; `undefined` when there is none. */
  function LastMember(ms: seq<Member>, key: string): (r: Value)
    ensures r.Undefined? <==> forall i :: 0 <= i < |ms| ==> ms[i].key != key
    ensures r.Defined? ==>
      exists i :: 0 <= i < |ms| && ms[i] == Member(key, r.json)
        && forall j :: i < j < |ms| ==> ms[j].key != key
    decreases |ms|
  {
    if |ms| == 0 then Undefined
    else if ms[|ms| - 1].key == key then Defined(ms[|ms| - 1].value)
    else LastMember(ms[..|ms| - 1], key)
  }

  /** `j[key]`: reading a property of `null` throws (None); an object yields
      its member; any other value has none of the keys read here. Inherited
      properties (`"abc".length`, `({}).constructor`) are not modelled: the
      code only reads `id` and `label`, which no prototype supplies. */
  function Property(j: Json, key: string): (r: Option<Value>)
    ensures r.None? <==> j.JNull?
    ensures j.JObj? ==> r == Some(LastMember(j.members, key))
    ensures !j.JObj? && !j.JNull? ==> r == Some(Undefined)
  {
    match j
    case JNull => None
    case JObj(ms) => Some(LastMember(ms, key))
    case _ => Some(Undefined)
  }

  // ---------------------------------------------------------------------
  // String conversion, as a template literal `${v}` performs it.
  // ---------------------------------------------------------------------

  /** Whether reading `key` from `j` finds no own member: `j` is not an
      object, or none of its members has that key. */
  predicate Lacks(j: Json, key: string) {
    !j.JObj? || forall i :: 0 <= i < |j.members| ==> j.members[i].key != key
  }

  /** A value that lacks a property reads it as `undefined`. */
  lemma LacksProperty(j: Json, key: string)
    requires !j.JNull? && Lacks(j, key)
    ensures Property(j, key) == Some(Undefined)
  {
  }

  /** `${v}`: `undefined` renders as the word itself; None when the
      conversion throws. */
  function ValueText(v: Value, host: Host): (r: Option<string>)
    ensures v.Undefined? ==> r == Some("undefined")
    ensures v.Defined? && v.json.JStr? ==> r == Some(v.json.s)
    ensures v.Defined? && v.json.JNull? ==> r == Some("null")
    ensures r.None? <==> v.Defined? && JsonText(v.json, host).None?
  {
    match v
    case Undefined => Some("undefined")
    case Defined(j) => JsonText(j, host)
  }

  /** `String(j)` for a structured value; None when it throws a TypeError.
      An object converts through `toString`. The inherited one gives
      "[object Object]". An own `toString` member of a parsed object is never
      callable, and the inherited `valueOf` returns the object itself, so no
      primitive is found and the conversion throws. Arrays join their items
      with ",", writing null items as empty, and throw when an item does. */
  function JsonText(j: Json, host: Host): (r: Option<string>)
    ensures j.JStr? ==> r == Some(j.s)
    ensures j.JNull? ==> r == Some("null")
    ensures j.JBool? ==> r == Some(if j.b then "true" else "false")
    ensures j.JNum? ==> r == Some(host.numberText(j.n))
    ensures j.JObj? ==> (r.None? <==> !Lacks(j, "toString"))
    ensures j.JObj? && r.Some? ==> r.value == "[object Object]"
    ensures j.JArr? ==>
      (r.None? <==> exists i :: 0 <= i < |j.items| && JsonText(j.items[i], host).None?)
    ensures j == JArr([]) ==> r == Some("")
    ensures j.JArr? && |j.items| == 1 ==>
      r == (if j.items[0].JNull? then Some("") else JsonText(j.items[0], host))
    decreases j, 1, 0
  {
    match j
    case JNull => Some("null")
    case JBool(b) => Some(if b then "true" else "false")
    case JNum(n) => Some(host.numberText(n))
    case JStr(s) => Some(s)
    case JArr(items) => JoinFrom(j, 0, host)
    case JObj(_) => if Lacks(j, "toString") then Some("[object Object]") else None
  }

  /** `items.slice(i).join(",")` for the array `a`. */
  function JoinFrom(a: Json, i: nat, host: Host): (r: Option<string>)
    requires a.JArr? && i <= |a.items|
    ensures r.None? <==> exists k :: i <= k < |a.items| && JsonText(a.items[k], host).None?
    ensures i < |a.items| && r.Some? ==>
      var first := if a.items[i].JNull? then "" else JsonText(a.items[i], host).value;
      && |r.value| >= |first|
      && r.value[..|first|] == first
      && (i + 1 < |a.items| ==> r.value == first + "," + JoinFrom(a, i + 1, host).value)
    decreases a, 0, |a.items| - i
  {
    if i == |a.items| then Some("")
    else
      var item := a.items[i];
      var t := if item.JNull? then Some("") else JsonText(item, host);
      if t.None? then None
      else if i + 1 == |a.items| then t
      else match JoinFrom(a, i + 1, host)
        case None => None
        case Some(rest) => Some(t.value + "," + rest)
  }

  // ---------------------------------------------------------------------
  // Decimal rendering of integers (`n.toString()`, `${n}`) and its inverse.
  // ---------------------------------------------------------------------

  predicate IsDigit(c: char) { '0' <= c <= '9' }

  predicate AllDigits(s: string) {
    forall i :: 0 <= i < |s| ==> IsDigit(s[i])
  }

  function DigitChar(d: nat): (c: char)
    requires d < 10
    ensures IsDigit(c) && c as int - '0' as int == d
  {
    ['0', '1', '2', '3', '4', '5', '6', '7', '8', '9'][d]
  }

  /** The base-10 numeral of `n`, without sign or leading zeros. */
  function Decimal(n: nat): (s: string)
    ensures |s| > 0 && AllDigits(s)
    decreases n
  {
    if n < 10 then [DigitChar(n)] else Decimal(n / 10) + [DigitChar(n % 10)]
  }

  /** The number a string of digits denotes. */
  function DigitsValue(s: string): nat
    requires AllDigits(s)
    decreases |s|
  {
    if |s| == 0 then 0
    else 10 * DigitsValue(s[..|s| - 1]) + (s[|s| - 1] as int - '0' as int)
  }

  /** Reading back a numeral gives the number: `Decimal` loses nothing. */
  lemma {:induction false} DecimalRoundTrip(n: nat)
    ensures DigitsValue(Decimal(n)) == n
  {
    if n >= 10 {
      var s := Decimal(n);
      assert s[..|s| - 1] == Decimal(n / 10);
      DecimalRoundTrip(n / 10);
    }
  }

  lemma DecimalInjective(a: nat, b: nat)
    requires Decimal(a) == Decimal(b)
    ensures a == b
  {
    DecimalRoundTrip(a);
    DecimalRoundTrip(b);
  }

  /** `i.toString()` for an integer. */
  function IntText(i: int): (s: string)
    ensures |s| > 0
    ensures i >= 0 ==> AllDigits(s)
    ensures i < 0 ==> s[0] == '-' && AllDigits(s[1..])
  {
    if i < 0 then "-" + Decimal(-i) else Decimal(i)
  }

  /** Distinct integers render as distinct strings. */
  lemma IntTextInjective(a: int, b: int)
    requires IntText(a) == IntText(b)
    ensures a == b
  {
    if a < 0 && b < 0 {
      assert IntText(a)[1..] == Decimal(-a);
      assert IntText(b)[1..] == Decimal(-b);
      DecimalInjective(-a, -b);
    } else if a >= 0 && b >= 0 {
      DecimalInjective(a, b);
    }
  }
}

=== FILE: task_box.dfy ===
/**
  The task list overlay: one row per child task of the selected template
  (a placeholder row when there are none), an Edit button per row, and the
  drag start that hands a task to the canvas.
 */
module TaskBox {
  import opened Wrappers
  import opened Js
  import opened Tasks

  /** A row of the list: a task (draggable, with an Edit button) or the
      "No tasks available." placeholder. */
  datatype Row = TaskRow(task: Task) | Placeholder

  /** The task list the overlay renders: a missing list counts as empty. */
  function TaskList(tasks: Option<seq<Task>>): (r: seq<Task>)
    ensures tasks.None? ==> r == []
    ensures tasks.Some? ==> r == tasks.value
  {
    tasks.GetOr([])
  }

  /** The rows of the overlay. */
  function Rows(tasks: Option<seq<Task>>): (rows: seq<Row>)
    ensures |rows| > 0
  {
    var ts := TaskList(tasks);
    if |ts| == 0 then [Placeholder]
    else seq(|ts|, i requires 0 <= i < |ts| => TaskRow(ts[i]))
  }

  /** The tasks shown by a list of rows, in order. */
  function RowTasks(rows: seq<Row>): seq<Task>
    decreases |rows|
  {
    if |rows| == 0 then []
    else (match rows[0] case TaskRow(t) => [t] case Placeholder => []) + RowTasks(rows[1..])
  }

  /** The rows show each task of the list once, in list order, and nothing
      else; the single placeholder appears exactly when the list is empty. */
  lemma RowsShowTasks(tasks: Option<seq<Task>>)
    ensures RowTasks(Rows(tasks)) == TaskList(tasks)
    ensures Rows(tasks) == [Placeholder] <==> |TaskList(tasks)| == 0
    ensures |TaskList(tasks)| > 0 ==> |Rows(tasks)| == |TaskList(tasks)|
  {
    var ts := TaskList(tasks);
    if |ts| > 0 {
      RowTasksOfTaskRows(ts);
      assert Rows(tasks)[0] == TaskRow(ts[0]);
    }
  }

  lemma {:induction false} RowTasksOfTaskRows(ts: seq<Task>)
    ensures RowTasks(seq(|ts|, i requires 0 <= i < |ts| => TaskRow(ts[i]))) == ts
    decreases |ts|
  {
    if |ts| > 0 {
      var rows := seq(|ts|, i requires 0 <= i < |ts| => TaskRow(ts[i]));
      assert rows[1..] == seq(|ts[1..]|, i requires 0 <= i < |ts[1..]| => TaskRow(ts[1..][i]));
      RowTasksOfTaskRows(ts[1..]);
      assert ts == [ts[0]] + ts[1..];
    }
  }

  /** The task handed to `onEdit` by the Edit button of row `i`; the
      placeholder row has no button. */
  function EditPressed(rows: seq<Row>, i: nat): (r: Option<Task>)
    requires i < |rows|
    ensures r.Some? <==> rows[i].TaskRow?
  {
    match rows[i]
    case TaskRow(t) => Some(t)
    case Placeholder => None
  }

  /** Each row's Edit button passes exactly that row's task. */
  lemma EditDispatchesRowTask(tasks: Option<seq<Task>>, i: nat)
    requires i < |TaskList(tasks)|
    ensures i < |Rows(tasks)| && EditPressed(Rows(tasks), i) == Some(TaskList(tasks)[i])
  {
  }

  // ---------------------------------------------------------------------
  // Drag start
  // ---------------------------------------------------------------------

  /** The drag gesture's transfer channel: text entries by format. */
  datatype DataTransfer = DataTransfer(data: map<string, string>, effectAllowed: string)

  const JsonFormat: string := "application/json"

  /** `getData(format)`: the entry, or the empty string when there is none. */
  function GetData(dt: DataTransfer, format: string): (r: string)
    ensures format in dt.data ==> r == dt.data[format]
    ensures format !in dt.data ==> r == ""
  {
    if format in dt.data then dt.data[format] else ""
  }

  /** Starting to drag a row: the whole task, as JSON text, under the JSON
      format, with a move effect. */
  function DragStart(t: Task, host: Host): (dt: DataTransfer)
    ensures dt.data.Keys == {JsonFormat}
    ensures GetData(dt, JsonFormat) == host.stringify(TaskObject(t))
    ensures dt.effectAllowed == "move"
  {
    DataTransfer(map[JsonFormat := host.stringify(TaskObject(t))], "move")
  }
}

=== FILE: task_form.dfy ===
/**
  The schema-driven task form: a fixed registry of field sections, the draft
  seeded from the task being edited, per-kind coercion of what the user
  types, how a stored value is displayed again, and the save and delete
  requests with their outcome rules. Network responses and the confirmation
  dialog's answer are parameters.
 */
module TaskForm {
  import opened Wrappers
  import opened Js
  import opened Tasks

  // ---------------------------------------------------------------------
  // The section registry
  // ---------------------------------------------------------------------

  /** The input type a section renders with. No registered section uses
      `JsonInput`; its change rule is kept because the form handles it. */
  datatype Kind = TextInput | NumberInput | SelectInput | JsonInput

  /** One field of the form: the task attribute it edits, its caption, its
      kind, whether the browser demands a value, and the select's choices. */
  datatype Section = Section(
    attr: Attr,
    caption: string,
    kind: Kind,
    required: bool,
    options: Option<seq<string>>)

  const BoolChoices: seq<string> := ["TRUE", "FALSE"]

  /** The form's sections, in rendering order. */
  const Registry: seq<Section> := [
    Section(Name, "Name", TextInput, true, None),
    Section(Slug, "Slug", TextInput, true, None),
    Section(Description, "Description", TextInput, true, None),
    Section(HelpText, "Help Text", TextInput, true, None),
    Section(InputFormat, "Input Format", TextInput, true, None),
    Section(OutputFormat, "Output Format", TextInput, true, None),
    Section(DependentTaskSlug, "Dependent Task Slug", TextInput, false, None),
    Section(RepeatsOn, "Repeats On", NumberInput, false, None),
    Section(BulkInput, "Bulk Input", SelectInput, false, Some(BoolChoices)),
    Section(InputHttpMethod, "HTTP Method", NumberInput, true, Some(["0", "1", "2"])),
    Section(ApiEndpoint, "API Endpoint", TextInput, true, None),
    Section(ApiTimeoutInMs, "API Timeout (ms)", NumberInput, true, None),
    Section(ResponseType, "Response Type", NumberInput, true, None),
    Section(IsJsonInputNeeded, "JSON Input Needed", SelectInput, true, Some(BoolChoices)),
    Section(TaskType, "Task Type", NumberInput, true, None),
    Section(IsActive, "Is Active", SelectInput, true, Some(BoolChoices)),
    Section(IsOptional, "Is Optional", SelectInput, true, Some(BoolChoices)),
    Section(Eta, "ETA", TextInput, true, None),
    Section(ServiceId, "Service ID", NumberInput, true, None),
    Section(EmailList, "Email List", TextInput, false, None),
    Section(Action, "Action", TextInput, true, None)
  ]

  /** The attributes the registry covers. */
  function RegistryAttrs(): set<Attr> {
    set i | 0 <= i < |Registry| :: Registry[i].attr
  }

  /** The draft properties the registry covers. */
  function RegistryKeys(): set<Key> {
    set i | 0 <= i < |Registry| :: Field(Registry[i].attr)
  }

  /** The only sections a user may leave empty. */
  const OptionalAttrs: set<Attr> := {DependentTaskSlug, RepeatsOn, BulkInput, EmailList}

  /** Attributes that hold a structured document and are edited as JSON text. */
  const DocumentAttrs: set<Attr> := {InputFormat, OutputFormat, Eta}

  /** The registry's shape: 21 sections with distinct attributes, none of
      them the server-side `id` or the display `label`; exactly the four
      optional attributes are not required; no section has the JSON kind, so
      the JSON change rule is never reached. */
  lemma RegistryShape()
    ensures |Registry| == 21
    ensures forall i, j :: 0 <= i < j < |Registry| ==> Registry[i].attr != Registry[j].attr
    ensures Id !in RegistryAttrs() && Label !in RegistryAttrs()
    ensures OptionalAttrs <= RegistryAttrs() && DocumentAttrs <= RegistryAttrs()
    ensures forall i :: 0 <= i < |Registry| ==> (Registry[i].required <==> Registry[i].attr !in OptionalAttrs)
    ensures forall i :: 0 <= i < |Registry| ==> Registry[i].kind != JsonInput
  {
    RegistryDistinct();
    RegistryExcludes();
    RegistryCoversSpecialAttrs();
    RegistryRequirement();
    RegistryKinds();
  }

  lemma RegistryDistinct()
    ensures forall i, j :: 0 <= i < j < |Registry| ==> Registry[i].attr != Registry[j].attr
  {
  }

  lemma RegistryExcludes()
    ensures Id !in RegistryAttrs() && Label !in RegistryAttrs()
  {
  }

  lemma RegistryCoversSpecialAttrs()
    ensures OptionalAttrs <= RegistryAttrs() && DocumentAttrs <= RegistryAttrs()
  {
    forall a | a in OptionalAttrs + DocumentAttrs ensures a in RegistryAttrs() {
      RegistryCoverage(a);
    }
  }

  /** The registry covers every task attribute except `id` and `label`. */
  lemma RegistryCoverage(a: Attr)
    ensures a in RegistryAttrs() <==> a != Id && a != Label
    ensures Field(a) in RegistryKeys() <==> a != Id && a != Label
  {
    if a != Id && a != Label {
      assert Registry[RegistryIndex(a)].attr == a;
    } else {
      RegistryExcludes();
    }
  }

  lemma RegistryRequirement()
    ensures forall i :: 0 <= i < |Registry| ==> (Registry[i].required <==> Registry[i].attr !in OptionalAttrs)
  {
  }

  lemma RegistryKinds()
    ensures forall i :: 0 <= i < |Registry| ==> Registry[i].kind != JsonInput
  {
  }

  // ---------------------------------------------------------------------
  // The draft and how it is seeded
  // ---------------------------------------------------------------------

  /** A property of the draft: a task attribute, or the `parent_id` the
      create request adds. */
  datatype Key = Field(attr: Attr) | ParentId

  /** The values being edited, by property. */
  type Draft = map<Key, Value>

  /** The value the seeding stores for `a`: documents as their JSON text,
      everything else as read from the target. */
  function SeededValue(target: EditTarget, a: Attr, host: Host): Value {
    if a in DocumentAttrs then Stringified(TargetAttribute(target, a), host)
    else TargetAttribute(target, a)
  }

  /** The attributes the seeding copies, in the order it lists them. */
  const SeededAttrs: seq<Attr> := [
    Name, Description, Slug, HelpText, InputFormat, OutputFormat,
    DependentTaskSlug, RepeatsOn, BulkInput, InputHttpMethod, ApiEndpoint,
    ApiTimeoutInMs, ResponseType, IsJsonInputNeeded, TaskType, IsActive,
    IsOptional, Eta, ServiceId, EmailList, Action]

  /** The draft built when the form is given something to edit: exactly the
      registered properties, each holding the target's attribute, documents
      as their JSON text. */
  function Seed(target: EditTarget, host: Host): (d: Draft)
    ensures d.Keys == RegistryKeys()
    ensures forall a :: Field(a) in d ==> d[Field(a)] == SeededValue(target, a, host)
  {
    SeededAttrsAreRegistry();
    map a | a in SeededAttrs :: Field(a) := SeededValue(target, a, host)
  }

  /** The position of a registered attribute in the registry (21 and 22 for
      the two unregistered ones): the witness the coverage proofs use in
      place of a search, checked against `Registry` by its contract. */
  function RegistryIndex(a: Attr): (i: nat)
    ensures a != Id && a != Label ==> i < |Registry| && Registry[i].attr == a
  {
    match a
    case Name => 0
    case Slug => 1
    case Description => 2
    case HelpText => 3
    case InputFormat => 4
    case OutputFormat => 5
    case DependentTaskSlug => 6
    case RepeatsOn => 7
    case BulkInput => 8
    case InputHttpMethod => 9
    case ApiEndpoint => 10
    case ApiTimeoutInMs => 11
    case ResponseType => 12
    case IsJsonInputNeeded => 13
    case TaskType => 14
    case IsActive => 15
    case IsOptional => 16
    case Eta => 17
    case ServiceId => 18
    case EmailList => 19
    case Action => 20
    case Id => 21
    case Label => 22
  }

  /** The attributes the seeding lists are exactly the registered ones. */
  lemma SeededAttrsAreRegistry()
    ensures (set a | a in SeededAttrs :: Field(a)) == RegistryKeys()
  {
    SeededAttrsRegistered();
    RegisteredAttrsSeeded();
  }

  lemma SeededAttrsRegistered()
    ensures forall a :: a in SeededAttrs ==> Field(a) in RegistryKeys()
  {
    assert Id !in SeededAttrs && Label !in SeededAttrs;
    forall a | a in SeededAttrs ensures Field(a) in RegistryKeys() {
      RegistryCoverage(a);
    }
  }

  lemma RegisteredAttrsSeeded()
    ensures forall i :: 0 <= i < |Registry| ==> Registry[i].attr in SeededAttrs
  {
  }

  /** The draft when the form opens: empty. */
  /** The draft before any target arrives: `useState({})`. */
  const EmptyDraft: Draft := map[]

  /** A form opened without a target keeps its initial draft, which holds
      no property at all. */
  lemma UntargetedFormStartsEmpty(host: Host)
    ensures Retarget(EmptyDraft, None, host).Keys == {}
  {
  }

  /** The draft after the form's target changes: reseeded from a target,
      left alone when the target becomes absent. */
  function Retarget(d: Draft, target: Option<EditTarget>, host: Host): (r: Draft)
    ensures target.None? ==> r == d
    ensures target.Some? ==> r == Seed(target.value, host)
  {
    match target
    case None => d
    case Some(t) => Seed(t, host)
  }

  /** Seeding from a task: exactly the task attributes other than `id` and
      `label`, and no `parent_id`; the three documents as the JSON text of the
      task's document; every other field the task's own attribute unchanged. */
  lemma SeedFromTask(t: Task, host: Host)
    ensures var d := Seed(Existing(t), host);
      && (forall a :: Field(a) in d <==> a != Id && a != Label)
      && ParentId !in d
      && Field(InputFormat) in d && d[Field(InputFormat)] == Text(host.stringify(t.input_format))
      && Field(OutputFormat) in d && d[Field(OutputFormat)] == Text(host.stringify(t.output_format))
      && Field(Eta) in d && d[Field(Eta)] == Text(host.stringify(t.eta))
      && forall a :: Field(a) in d && a !in DocumentAttrs ==> d[Field(a)] == Attribute(t, a)
  {
    SeedKeys(t, host);
    SeedDocuments(t, host);
    SeedCopies(t, host);
  }

  lemma SeedCopies(t: Task, host: Host)
    ensures var d := Seed(Existing(t), host);
      forall a :: Field(a) in d && a !in DocumentAttrs ==> d[Field(a)] == Attribute(t, a)
  {
  }

  lemma SeedKeys(t: Task, host: Host)
    ensures var d := Seed(Existing(t), host);
      (forall a :: Field(a) in d <==> a != Id && a != Label) && ParentId !in d
  {
    var d := Seed(Existing(t), host);
    forall a ensures Field(a) in d <==> a != Id && a != Label {
      RegistryCoverage(a);
    }
  }

  lemma SeedDocuments(t: Task, host: Host)
    ensures var d := Seed(Existing(t), host);
      && Field(InputFormat) in d && d[Field(InputFormat)] == Text(host.stringify(t.input_format))
      && Field(OutputFormat) in d && d[Field(OutputFormat)] == Text(host.stringify(t.output_format))
      && Field(Eta) in d && d[Field(Eta)] == Text(host.stringify(t.eta))
  {
    RegistryCoverage(InputFormat);
    RegistryCoverage(OutputFormat);
    RegistryCoverage(Eta);
  }

  // ---------------------------------------------------------------------
  // Editing a field
  // ---------------------------------------------------------------------

  /** What a change event on a field of `kind` stores for the typed text. */
  function Coerce(kind: Kind, input: string, host: Host): (v: Value)
    ensures kind == SelectInput ==>
      (v.Defined? && v.json.JBool? <==> input == "TRUE" || input == "FALSE")
    ensures kind == SelectInput && v.Defined? && v.json.JBool? ==> (v.json.b <==> input == "TRUE")
    ensures kind == NumberInput ==> v == Num(host.toNumber(input))
    ensures kind == SelectInput && input != "TRUE" && input != "FALSE" ==> v == Text(input)
    ensures kind == TextInput ==> v == Text(input)
    ensures kind == JsonInput && host.parse(input).Some? ==> v == Defined(host.parse(input).value)
    ensures kind == JsonInput && host.parse(input).None? ==> v == Text(input)
  {
    match kind
    case JsonInput =>
      (match host.parse(input)
       case Some(parsed) => Defined(parsed)
       case None => Text(input))
    case SelectInput =>
      if input == "TRUE" then Bool(true)
      else if input == "FALSE" then Bool(false)
      else Text(input)
    case NumberInput => Num(host.toNumber(input))
    case TextInput => Text(input)
  }

  /** A change event on `sec`: the section's key gets the coerced value and no
      other entry of the draft changes. */
  function ChangeField(d: Draft, sec: Section, input: string, host: Host): (r: Draft)
    ensures r.Keys == d.Keys + {Field(sec.attr)}
    ensures r[Field(sec.attr)] == Coerce(sec.kind, input, host)
    ensures forall k :: k in d && k != Field(sec.attr) ==> r[k] == d[k]
  {
    d[Field(sec.attr) := Coerce(sec.kind, input, host)]
  }

  /** Editing a registered field never consults `JSON.parse`: the result is
      the same whatever parser the host supplies. */
  lemma RegisteredChangeIgnoresParser(d: Draft, i: nat, input: string, host: Host, parse: string -> Option<Json>)
    requires i < |Registry|
    ensures ChangeField(d, Registry[i], input, host)
      == ChangeField(d, Registry[i], input, Host(host.toNumber, host.numberText, host.stringify, parse))
  {
    RegistryShape();
  }

  // ---------------------------------------------------------------------
  // Displaying a stored value
  // ---------------------------------------------------------------------

  /** The option a select shows for a stored value: booleans as TRUE/FALSE,
      anything else as its string form, the placeholder ("") for
      `undefined` and null. None when the string conversion throws, which
      fails the render. */
  function SelectShown(v: Value, host: Host): (r: Option<string>)
    ensures v.Undefined? || v == Defined(JNull) ==> r == Some("")
    ensures v.Defined? && v.json.JBool? ==> r == Some(if v.json.b then "TRUE" else "FALSE")
    ensures v.Defined? && v.json.JStr? ==> r == Some(v.json.s)
    ensures r.None? <==> v.Defined? && JsonText(v.json, host).None?
  {
    match v
    case Undefined => Some("")
    case Defined(JNull) => Some("")
    case Defined(JBool(b)) => Some(if b then "TRUE" else "FALSE")
    case Defined(j) => JsonText(j, host)
  }

  /** What a text or number input shows for a stored value; None when the
      string conversion throws. */
  function InputShown(v: Value, host: Host): (r: Option<string>)
    ensures v.Undefined? || v == Defined(JNull) ==> r == Some("")
    ensures v.Defined? && v.json.JStr? ==> r == Some(v.json.s)
    ensures v.Defined? && v.json.JBool? ==> r == Some(if v.json.b then "true" else "false")
    ensures r.None? <==> v.Defined? && JsonText(v.json, host).None?
  {
    match v
    case Undefined => Some("")
    case Defined(JNull) => Some("")
    case Defined(j) => JsonText(j, host)
  }

  /** Choosing an option and displaying what was stored shows the same option
      again, for TRUE, FALSE, the placeholder and any other string; a text
      input shows back exactly what was typed. */
  lemma DisplayRoundTrip(s: string, host: Host)
    ensures SelectShown(Coerce(SelectInput, s, host), host) == Some(s)
    ensures InputShown(Coerce(TextInput, s, host), host) == Some(s)
  {
  }

  /** Storing what a select displays gives back a stored boolean, and any
      stored text that is not one of the two option words. */
  lemma SelectStoreOfShown(v: Value, host: Host)
    requires v.Defined? && (v.json.JBool? || (v.json.JStr? && v.json.s !in BoolChoices))
    ensures SelectShown(v, host).Some?
    ensures Coerce(SelectInput, SelectShown(v, host).value, host) == v
  {
  }

  // ---------------------------------------------------------------------
  // Saving and deleting
  // ---------------------------------------------------------------------

  datatype HttpMethod = Post | Put | Delete

  /** A request to the task service; the body is the object sent as JSON. */
  datatype Request = Request(verb: HttpMethod, url: string, body: Option<Draft>)

  const Origin: string := "http://localhost:8080"

  /** How a request ended: with an HTTP status, or with a transport error. */
  datatype Transport = Responded(status: int) | NetworkError

  /** `response.ok`: a 2xx status. */
  predicate Succeeded(t: Transport) {
    t.Responded? && 200 <= t.status <= 299
  }

  /** The save request: PUT of the draft to the edited task's URL, or POST of
      the draft plus the template's id as `parent_id` when creating. */
  function SaveRequest(template: Template, target: Option<EditTarget>, d: Draft): (r: Request)
    ensures r.body.Some?
    ensures target.Some? ==> r.verb == Put && r.url == Origin + "/task/" + TargetId(target.value)
    ensures target.Some? ==> r.body.value == d
    ensures target.None? ==> r.verb == Post && r.url == Origin + "/task"
    ensures target.None? ==>
      && r.body.value.Keys == d.Keys + {ParentId}
      && r.body.value[ParentId] == Text(template.id)
      && forall k :: k in d && k != ParentId ==> r.body.value[k] == d[k]
  {
    match target
    case Some(t) => Request(Put, Origin + "/task/" + TargetId(t), Some(d))
    case None => Request(Post, Origin + "/task", Some(d[ParentId := Text(template.id)]))
  }

  /** What submitting the form does: the request sent, the argument `onSave`
      is called with (if it is), and whether the failure alert is raised.
      The draft is not an output: submitting never changes it. */
  datatype SaveOutcome = SaveOutcome(request: Request, saved: Option<Draft>, alerted: bool)

  function Submit(template: Template, target: Option<EditTarget>, d: Draft, response: Transport): (o: SaveOutcome)
    ensures o.request == SaveRequest(template, target, d)
    ensures o.saved.Some? <==> Succeeded(response)
    ensures o.saved.Some? ==> o.saved.value == d
    ensures o.alerted <==> !Succeeded(response)
  {
    var request := SaveRequest(template, target, d);
    if Succeeded(response) then SaveOutcome(request, Some(d), false)
    else SaveOutcome(request, None, true)
  }

  /** Saving a form that was opened on a task and left unedited sends the
      seed: a PUT to the task's URL whose body has no `id`, `label` or
      `parent_id`, and whose three documents are the JSON text of the task's
      documents rather than the documents themselves. */
  lemma UneditedSaveSendsSeed(tpl: Template, t: Task, host: Host)
    ensures var r := SaveRequest(tpl, Some(Existing(t)), Seed(Existing(t), host));
      && r.verb == Put && r.url == Origin + "/task/" + t.id
      && r.body == Some(Seed(Existing(t), host))
      && ParentId !in r.body.value && Field(Id) !in r.body.value && Field(Label) !in r.body.value
      && Field(InputFormat) in r.body.value && r.body.value[Field(InputFormat)] == Text(host.stringify(t.input_format))
      && Field(OutputFormat) in r.body.value && r.body.value[Field(OutputFormat)] == Text(host.stringify(t.output_format))
      && Field(Eta) in r.body.value && r.body.value[Field(Eta)] == Text(host.stringify(t.eta))
  {
    SeedFromTask(t, host);
  }

  /** What the delete button did: the request sent, the id handed to
      `onDelete` (the target's `id` property, `undefined` for the click
      event), and whether the failure alert was shown. */
  datatype DeleteOutcome = DeleteOutcome(request: Option<Request>, deleted: Option<Value>, alerted: bool)

  /** Delete asks for confirmation only when there is a target; without a
      target or without confirmation nothing is sent. The request goes to the
      `/master/` path, and `onDelete` follows only a 2xx response. */
  function RemoveTask(target: Option<EditTarget>, confirmed: bool, response: Transport): (o: DeleteOutcome)
    ensures target.None? || !confirmed ==> o == DeleteOutcome(None, None, false)
    ensures o.request.Some? <==> target.Some? && confirmed
    ensures o.request.Some? ==> o.request.value == Request(Delete, Origin + "/master/" + TargetId(target.value), None)
    ensures o.deleted.Some? <==> target.Some? && confirmed && Succeeded(response)
    ensures o.deleted.Some? ==> o.deleted.value == TargetAttribute(target.value, Id)
    ensures o.alerted <==> o.request.Some? && !Succeeded(response)
  {
    if target.None? || !confirmed then DeleteOutcome(None, None, false)
    else
      var request := Request(Delete, Origin + "/master/" + TargetId(target.value), None);
      if Succeeded(response) then DeleteOutcome(Some(request), Some(TargetAttribute(target.value, Id)), false)
      else DeleteOutcome(Some(request), None, true)
  }
}

=== FILE: tasks.dfy ===
/**
  The records the front-end passes between its components: a task (one
  configurable workflow step), a template (a top-level catalogue entry with
  its loaded child tasks) and what the form is opened on.
 */
module Tasks {
  import opened Wrappers
  import opened Js

  /** A task as the shell and the task list hold it. `name` is read by the
      form but never set by the catalogue mapping, so it may be absent. The
      three document attributes hold whatever structured value was fetched. */
  datatype Task = Task(
    id: string,
    name: Option<string>,
    labelText: string,   // the `label` attribute (a reserved word in Dafny)
    description: string,
    slug: string,
    help_text: string,
    input_format: Json,
    output_format: Json,
    dependent_task_slug: string,
    repeats_on: Number,
    bulk_input: bool,
    input_http_method: Number,
    api_endpoint: string,
    api_timeout_in_ms: Number,
    response_type: Number,
    is_json_input_needed: bool,
    task_type: Number,
    is_active: bool,
    is_optional: bool,
    eta: Json,
    service_id: Number,
    email_list: string,
    action: string)

  /** A template: its own attributes, the child tasks loaded for it, and the
      id of the template those children were fetched for (set on expansion). */
  datatype Template = Template(
    id: string,
    name: string,
    description: string,
    tasks: seq<Task>,
    parentTaskId: Option<string>)

  /** What the form is opened on. Editing passes a task; the create button
      passes its click event, an object that has none of a task's attributes. */
  datatype EditTarget = Existing(task: Task) | ClickEvent

  /** The attributes of a task, in declaration order. */
  datatype Attr =
    | Id
    | Name
    | Label
    | Description
    | Slug
    | HelpText
    | InputFormat
    | OutputFormat
    | DependentTaskSlug
    | RepeatsOn
    | BulkInput
    | InputHttpMethod
    | ApiEndpoint
    | ApiTimeoutInMs
    | ResponseType
    | IsJsonInputNeeded
    | TaskType
    | IsActive
    | IsOptional
    | Eta
    | ServiceId
    | EmailList
    | Action

  const AllAttrs: seq<Attr> := [
    Id, Name, Label, Description, Slug, HelpText,
    InputFormat, OutputFormat, DependentTaskSlug, RepeatsOn, BulkInput, InputHttpMethod,
    ApiEndpoint, ApiTimeoutInMs, ResponseType, IsJsonInputNeeded, TaskType, IsActive,
    IsOptional, Eta, ServiceId, EmailList, Action]

  /** The property name of an attribute. */
  function KeyName(a: Attr): string {
    match a
    case Id => "id"
    case Name => "name"
    case Label => "label"
    case Description => "description"
    case Slug => "slug"
    case HelpText => "help_text"
    case InputFormat => "input_format"
    case OutputFormat => "output_format"
    case DependentTaskSlug => "dependent_task_slug"
    case RepeatsOn => "repeats_on"
    case BulkInput => "bulk_input"
    case InputHttpMethod => "input_http_method"
    case ApiEndpoint => "api_endpoint"
    case ApiTimeoutInMs => "api_timeout_in_ms"
    case ResponseType => "response_type"
    case IsJsonInputNeeded => "is_json_input_needed"
    case TaskType => "task_type"
    case IsActive => "is_active"
    case IsOptional => "is_optional"
    case Eta => "eta"
    case ServiceId => "service_id"
    case EmailList => "email_list"
    case Action => "action"
  }

  /** The attribute a property name denotes, if any. */
  function AttrNamed(key: string): Option<Attr> {
    if key == "id" then Some(Id) else
    if key == "name" then Some(Name) else
    if key == "label" then Some(Label) else
    if key == "description" then Some(Description) else
    if key == "slug" then Some(Slug) else
    if key == "help_text" then Some(HelpText) else
    if key == "input_format" then Some(InputFormat) else
    if key == "output_format" then Some(OutputFormat) else
    if key == "dependent_task_slug" then Some(DependentTaskSlug) else
    if key == "repeats_on" then Some(RepeatsOn) else
    if key == "bulk_input" then Some(BulkInput) else
    if key == "input_http_method" then Some(InputHttpMethod) else
    if key == "api_endpoint" then Some(ApiEndpoint) else
    if key == "api_timeout_in_ms" then Some(ApiTimeoutInMs) else
    if key == "response_type" then Some(ResponseType) else
    if key == "is_json_input_needed" then Some(IsJsonInputNeeded) else
    if key == "task_type" then Some(TaskType) else
    if key == "is_active" then Some(IsActive) else
    if key == "is_optional" then Some(IsOptional) else
    if key == "eta" then Some(Eta) else
    if key == "service_id" then Some(ServiceId) else
    if key == "email_list" then Some(EmailList) else
    if key == "action" then Some(Action) else
    None
  }

  /** Naming an attribute and reading the name back is lossless, so no two
      attributes share a property name. */
  lemma AttrNamedKeyName(a: Attr)
    ensures AttrNamed(KeyName(a)) == Some(a)
  {
    match a
    case Id => assert KeyName(a) == "id";
    case Name => assert KeyName(a) == "name";
    case Label => assert KeyName(a) == "label";
    case Description => assert KeyName(a) == "description";
    case Slug => assert KeyName(a) == "slug";
    case HelpText => assert KeyName(a) == "help_text";
    case InputFormat => assert KeyName(a) == "input_format";
    case OutputFormat => assert KeyName(a) == "output_format";
    case DependentTaskSlug => assert KeyName(a) == "dependent_task_slug";
    case RepeatsOn => assert KeyName(a) == "repeats_on";
    case BulkInput => assert KeyName(a) == "bulk_input";
    case InputHttpMethod => assert KeyName(a) == "input_http_method";
    case ApiEndpoint => assert KeyName(a) == "api_endpoint";
    case ApiTimeoutInMs => assert KeyName(a) == "api_timeout_in_ms";
    case ResponseType => assert KeyName(a) == "response_type";
    case IsJsonInputNeeded => assert KeyName(a) == "is_json_input_needed";
    case TaskType => assert KeyName(a) == "task_type";
    case IsActive => assert KeyName(a) == "is_active";
    case IsOptional => assert KeyName(a) == "is_optional";
    case Eta => assert KeyName(a) == "eta";
    case ServiceId => assert KeyName(a) == "service_id";
    case EmailList => assert KeyName(a) == "email_list";
    case Action => assert KeyName(a) == "action";
  }

  /** A name that denotes an attribute is that attribute's name. */
  lemma KeyNameOfAttrNamed(key: string)
    ensures AttrNamed(key).Some? ==> KeyName(AttrNamed(key).value) == key
  {
    if AttrNamed(key).Some? {
      match AttrNamed(key).value
      case Id => assert key == "id";
      case Name => assert key == "name";
      case Label => assert key == "label";
      case Description => assert key == "description";
      case Slug => assert key == "slug";
      case HelpText => assert key == "help_text";
      case InputFormat => assert key == "input_format";
      case OutputFormat => assert key == "output_format";
      case DependentTaskSlug => assert key == "dependent_task_slug";
      case RepeatsOn => assert key == "repeats_on";
      case BulkInput => assert key == "bulk_input";
      case InputHttpMethod => assert key == "input_http_method";
      case ApiEndpoint => assert key == "api_endpoint";
      case ApiTimeoutInMs => assert key == "api_timeout_in_ms";
      case ResponseType => assert key == "response_type";
      case IsJsonInputNeeded => assert key == "is_json_input_needed";
      case TaskType => assert key == "task_type";
      case IsActive => assert key == "is_active";
      case IsOptional => assert key == "is_optional";
      case Eta => assert key == "eta";
      case ServiceId => assert key == "service_id";
      case EmailList => assert key == "email_list";
      case Action => assert key == "action";
    }
  }

  /** The typed value of attribute `a` of `t`. */
  function Attribute(t: Task, a: Attr): Value {
    match a
    case Id => Text(t.id)
    case Name => if t.name.Some? then Text(t.name.value) else Undefined
    case Label => Text(t.labelText)
    case Description => Text(t.description)
    case Slug => Text(t.slug)
    case HelpText => Text(t.help_text)
    case InputFormat => Defined(t.input_format)
    case OutputFormat => Defined(t.output_format)
    case DependentTaskSlug => Text(t.dependent_task_slug)
    case RepeatsOn => Num(t.repeats_on)
    case BulkInput => Bool(t.bulk_input)
    case InputHttpMethod => Num(t.input_http_method)
    case ApiEndpoint => Text(t.api_endpoint)
    case ApiTimeoutInMs => Num(t.api_timeout_in_ms)
    case ResponseType => Num(t.response_type)
    case IsJsonInputNeeded => Bool(t.is_json_input_needed)
    case TaskType => Num(t.task_type)
    case IsActive => Bool(t.is_active)
    case IsOptional => Bool(t.is_optional)
    case Eta => Defined(t.eta)
    case ServiceId => Num(t.service_id)
    case EmailList => Text(t.email_list)
    case Action => Text(t.action)
  }

  /** `task[key]` for an arbitrary property name: `undefined` unless the name
      is one of the task's attributes. */
  function PropertyOf(t: Task, key: string): Value {
    match AttrNamed(key)
    case Some(a) => Attribute(t, a)
    case None => Undefined
  }

  /** Attribute `a` of what the form was opened on. */
  function TargetAttribute(target: EditTarget, a: Attr): Value {
    match target
    case Existing(t) => Attribute(t, a)
    case ClickEvent => Undefined
  }

  /** `${target.id}`: the task's id, or "undefined" for the click event. */
  function TargetId(target: EditTarget): (r: string)
    ensures target.Existing? ==> r == target.task.id
  {
    match target
    case Existing(t) => t.id
    case ClickEvent => "undefined"
  }

  /** The members of `t` for `attrs`, in order, leaving out those that are
      `undefined` (as `JSON.stringify` does). */
  function MembersFor(t: Task, attrs: seq<Attr>): seq<Member>
    decreases |attrs|
  {
    if |attrs| == 0 then []
    else
      var rest := MembersFor(t, attrs[..|attrs| - 1]);
      var a := attrs[|attrs| - 1];
      match Attribute(t, a)
      case Undefined => rest
      case Defined(j) => rest + [Member(KeyName(a), j)]
  }

  /** The task as a structured value: the object `JSON.stringify(task)` writes. */
  function TaskObject(t: Task): Json {
    JObj(MembersFor(t, AllAttrs))
  }

  /** Reading a property back from the members built for `attrs` gives the
      attribute it names when that attribute is among `attrs`, and
      `undefined` otherwise. */
  lemma {:induction false} MembersForLookup(t: Task, attrs: seq<Attr>, key: string)
    ensures LastMember(MembersFor(t, attrs), key)
      == (if AttrNamed(key).Some? && AttrNamed(key).value in attrs then Attribute(t, AttrNamed(key).value) else Undefined)
    decreases |attrs|
  {
    if |attrs| > 0 {
      var init := attrs[..|attrs| - 1];
      var a := attrs[|attrs| - 1];
      assert attrs == init + [a];
      MembersForLookup(t, init, key);
      AttrNamedKeyName(a);
      KeyNameOfAttrNamed(key);
      var named := AttrNamed(key);
      assert named.Some? && named.value == a <==> KeyName(a) == key;
      var rest := MembersFor(t, init);
      match Attribute(t, a)
      case Undefined =>
        assert MembersFor(t, attrs) == rest;
      case Defined(j) =>
        var ms := rest + [Member(KeyName(a), j)];
        assert MembersFor(t, attrs) == ms;
        assert ms[..|ms| - 1] == rest;
    }
  }

  /** The object form of a task is the task: every property read on it gives
      what the same read gives on the task. */
  lemma TaskObjectProperty(t: Task, key: string)
    ensures Property(TaskObject(t), key) == Some(PropertyOf(t, key))
  {
    MembersForLookup(t, AllAttrs, key);
    if AttrNamed(key).Some? {
      var a := AttrNamed(key).value;
      match a
      case Id => case Name => case Label => case Description => case Slug =>
      case HelpText => case InputFormat => case OutputFormat => case DependentTaskSlug =>
      case RepeatsOn => case BulkInput => case InputHttpMethod => case ApiEndpoint =>
      case ApiTimeoutInMs => case ResponseType => case IsJsonInputNeeded => case TaskType =>
      case IsActive => case IsOptional => case Eta => case ServiceId => case EmailList =>
      case Action =>
    }
  }
}

=== FILE: wrappers.dfy ===
/** Option and Result: absence and failure as values. */
module Wrappers {

  datatype Option<+T> = None | Some(value: T) {

    /** The carried value, or `default` when absent. */
    function GetOr(default: T): T {
      match this
      case Some(v) => v
      case None => default
    }
  }

  /** The outcome of a remote call: a decoded payload, or a failure. */
  datatype Result<+R, +E> = Ok(value: R) | Err(error: E)
}
